=== FILE: README.md ===
# sistema_captacion core, modelled in Dafny

This project models the hand-written MVC layer of *sistema_captacion*, a PHP
application for recording athletes' physical test results. It covers five parts:

- **QueryBuilder** (`app/core/QueryBuilder.php`): a fluent SELECT builder. It
  collects where predicates, joins, groups, orders, limit and offset. It then
  compiles them, in a fixed section order, into SQL text with `?` placeholders
  and a separate binding list.
- **Model** (`app/core/Model.php`): the active-record base class. A record keeps
  its current attribute array, a snapshot of the last synchronised values, and
  whether a database row backs it. `save` and `delete` turn the dirty
  attributes into INSERT, UPDATE or DELETE statements.
- **Router** (`app/core/Router.php`): an ordered route table with groups,
  `{name}` parameters, first-match dispatch and the string handling around it
  (controller and method names, middleware directives, namespace, URL
  normalisation).
- **Database** (`app/core/Database.php`): the PDO wrapper. `query` binds its
  parameters by position and records an error flag. `action`, `get`, `delete`,
  `insert` and `update` build their statement text from a table, a condition
  or a field array.
- **ResultadoPrueba** (`app/models/ResultadoPrueba.php`): the value rules of a
  test result, such as the final value and the average of the two sides.

All operations are pure functions, or methods without side effects, over
immutable datatypes:

- A PHP array with string keys is a sequence of `(key, value)` pairs in
  insertion order (module `Assoc`).
- A scalar is `Value = Null | Bool | Int | Str`.
- PHP's string built-ins are module `Text`.
- Positional placeholders and their pairing with bound values are module
  `Positional`.

The database connection is a parameter. For the record mapper it is a
`Driver` that either succeeds with a last insert id or raises. For the
wrapper it is an `Execution`: not prepared, execute failed, or executed with
rows.

The model assumes PHP 8.2 or later, which the source does not pin. Two choices depend on the version:

- The operator whitelist uses PHP 8's loose `in_array`. Under it `true` matches any non-empty operator, and `null`, `false` and integers match none. Before PHP 8, `0 == '='` held, so an integer operator `0` passed.
- Case mapping is ASCII-only and locale-independent (`strtoupper`, `strtolower`, `ucfirst`), as it is from PHP 8.2 on.

`insertRecord`, `updateRecord` and `delete` are documented `@return bool` and
end in a `return false` after an `if ($result)` test
(`app/core/Model.php:138-145`, `174-179`, `195-200`), but those branches cannot
be reached:

- The connection is opened in exception mode (`app/core/Database.php:19`), so a
  failing statement raises out of `save()`/`delete()`.
- `Database::query` returns the wrapper object, so `if ($result)` is always
  true.

`Model.Save` and `Model.Delete` therefore return either a success outcome or a
`Raised` outcome.

## Model

| member | source | states |
|---|---|---|
| QueryBuilder.NewQuery | app/core/QueryBuilder.php:7-26 | a new builder selects `*` from the model's table, has no bindings and satisfies the where-alignment invariant |
| QueryBuilder.Select | app/core/QueryBuilder.php:33-36 | `select` replaces the column list and leaves predicates and bindings alone |
| QueryBuilder.AddBinding | app/core/QueryBuilder.php:524-532 | `addBinding` appends the values to the list of its kind, in order, and leaves every other kind and the clauses unchanged |
| QueryBuilder.GetBindings | app/core/QueryBuilder.php:538-543 | `getBindings` is the where bindings followed by the join bindings |
| QueryBuilder.Where | app/core/QueryBuilder.php:46-67 | a three- or four-argument `where` appends one basic predicate and exactly one where binding, its value, and keeps where bindings aligned with the predicates |
| QueryBuilder.WhereEquals | app/core/QueryBuilder.php:51-54 | with exactly two arguments the operator is `=` and the second argument is the bound value |
| QueryBuilder.OrWhere | app/core/QueryBuilder.php:76-78 | `orWhere(c, op, v)` appends the `or`-connected predicate with operator `op` and binds `v` |
| QueryBuilder.OrWhereTwoArguments | app/core/QueryBuilder.php:76-78 | as written, `orWhere(c, v)` stores `v` as the operator and binds `null`, so it differs from the intended `c = v` predicate |
| QueryBuilder.OrWhereEquals | app/core/QueryBuilder.php:76-78 | corrected two-argument `orWhere`: the same entry and binding as two-argument `where`, with the connector `or` |
| QueryBuilder.WhereIn | app/core/QueryBuilder.php:88-101 | `whereIn` appends an IN predicate and all its values as where bindings, in order |
| QueryBuilder.WhereNotIn | app/core/QueryBuilder.php:110-112 | `whereNotIn` is `whereIn` negated: same bindings, NOT IN predicate |
| QueryBuilder.WhereRaw | app/core/QueryBuilder.php:121-131 | `whereRaw` appends the raw text verbatim and its bindings unchecked |
| QueryBuilder.WhereNull | app/core/QueryBuilder.php:140-150 | `whereNull` appends a null test and binds nothing |
| QueryBuilder.WhereNotNull | app/core/QueryBuilder.php:158-160 | `whereNotNull` appends the negated null test and binds nothing |
| QueryBuilder.Direction | app/core/QueryBuilder.php:168-175 | the stored direction is `asc` exactly when the lower-cased argument is `asc`, and `desc` otherwise |
| QueryBuilder.OrderBy | app/core/QueryBuilder.php:168-175 | `orderBy` appends one order entry with the normalised direction |
| QueryBuilder.Limit | app/core/QueryBuilder.php:182-185 | `limit` sets the limit only |
| QueryBuilder.Offset | app/core/QueryBuilder.php:192-195 | `offset` sets the offset only |
| QueryBuilder.ForPage | app/core/QueryBuilder.php:202-223 | `forPage(p, n)` sets offset `(p - 1) * n` and limit `n` |
| QueryBuilder.Join | app/core/QueryBuilder.php:234-245 | `join` appends one join descriptor and touches neither predicates nor bindings |
| QueryBuilder.LeftJoin | app/core/QueryBuilder.php:254-256 | `leftJoin` appends a join of kind `left` and leaves the predicates and bindings unchanged |
| QueryBuilder.RightJoin | app/core/QueryBuilder.php:266-268 | `rightJoin` appends a join of kind `right` and leaves the predicates and bindings unchanged |
| QueryBuilder.GroupBy | app/core/QueryBuilder.php:275-282 | `groupBy` appends its columns after the earlier ones and never replaces them |
| QueryBuilder.SectionOrder | app/core/QueryBuilder.php:354-385 | compiled sections come in the order SELECT, FROM, JOIN, WHERE, GROUP BY, ORDER BY, LIMIT, OFFSET; SELECT and FROM always appear, each other section exactly when its clause is set |
| QueryBuilder.CompileWheresText | app/core/QueryBuilder.php:409-423 | the WHERE body is `1 = 1` followed, for each predicate in insertion order, by a space, its connector and its fragment |
| QueryBuilder.WhereBodyTruthy | app/core/QueryBuilder.php:420-422 | with at least one predicate the joined body is never PHP-falsy, so it is always appended |
| QueryBuilder.FragmentPlaceholders | app/core/QueryBuilder.php:430-479 | each compiled predicate has exactly as many `?` as the values it binds (one for basic, one per value for IN / NOT IN, none for null tests) |
| Positional.PlaceholderList | app/core/QueryBuilder.php:439-442 | `implode(', ', array_fill(0, n, '?'))` holds exactly n placeholders, in the pattern `?, ?, ?` |
| Positional.FillAppend | app/core/QueryBuilder.php:538-543 | concatenating texts and their binding lists in the same order gives each text's placeholders its own values |
| QueryBuilder.WheresAligned | app/core/QueryBuilder.php:409-452 | the compiled WHERE clause has one `?` per where value, and binding the values in order gives the i-th predicate's placeholders the i-th predicate's values |
| QueryBuilder.StatementPlaceholders | app/core/QueryBuilder.php:354-385 | a statement built through the where operations has exactly as many `?` as `getBindings()` returns values |
| Model.New | app/core/Model.php:14-17 | a constructed record is not persisted, holds exactly the given keys, each with its given value, and its snapshot equals its attributes |
| Model.NewIsClean | app/core/Model.php:14-17 | a constructed record has no dirty attributes |
| Model.Fill | app/core/Model.php:32-37 | after `fill` every given key reads its given value, every other key reads as before, and keys stay distinct |
| Model.SetAttribute | app/core/Model.php:45-48 | `setAttribute` leaves the snapshot and the persisted flag unchanged and keeps keys distinct |
| Model.SetAttributeLookup | app/core/Model.php:45-48 | after `setAttribute(k, v)` the key reads `v` and every other key reads as before |
| Model.GetAttribute | app/core/Model.php:56-66 | `getAttribute` returns the stored value, else the same-named method's value, else the default |
| Model.DirtyKeys | app/core/Model.php:207-218 | a key is dirty exactly when it is stored and its snapshot value is absent or not identical |
| Model.DirtyValues | app/core/Model.php:207-218 | every dirty entry carries its attribute's current value |
| Model.SetAttributeDirty | app/core/Model.php:45-48 | on a clean record, setting one attribute makes exactly that key dirty, and only when the value changes |
| Model.SyncOriginal | app/core/Model.php:224-227 | `syncOriginal` leaves nothing dirty and keeps the attributes |
| Model.IsDirtyMeaning | app/core/Model.php:234-239 | `isDirty()` holds exactly when some stored attribute differs from its snapshot or has none |
| Model.IsDirtyAny | app/core/Model.php:241-252 | `isDirty(names)` holds exactly when one of the names is a dirty key |
| Model.NamedPlaceholdersList | app/core/Model.php:131-132 | the VALUES list of an INSERT is `:column` for each dirty column, in order, separated by `, ` |
| Model.UpdateValues | app/core/Model.php:159-168 | the UPDATE values have the dirty keys in order, then the key column unless it is itself dirty |
| Model.UpdateValuesLookup | app/core/Model.php:159-168 | the key column is bound to the key value and every other dirty column to its new value |
| Model.DeleteStatement | app/core/Model.php:191-193 | the DELETE binds exactly the key value |
| Model.InsertRecord | app/core/Model.php:124-146 | with nothing dirty `insertRecord` sends nothing and returns true; otherwise it raises exactly when the driver does, and on success the record is persisted and the INSERT of the dirty entries was sent |
| Model.UpdateRecord | app/core/Model.php:152-180 | with nothing dirty `updateRecord` sends nothing and returns true; otherwise it raises exactly when the driver does, and on success it sends an UPDATE and keeps the attributes |
| Model.Save | app/core/Model.php:112-118 | `save` inserts a record without a row and updates one with a row |
| Model.Delete | app/core/Model.php:186-201 | deleting an unpersisted record returns false and sends nothing; otherwise it raises exactly when the driver does, and on success the record is no longer persisted and the DELETE by key was sent |
| Model.InsertPersists | app/core/Model.php:138-143 | after a successful insert the record is persisted, its key is the last insert id, and nothing is dirty |
| Model.InsertStatementShape | app/core/Model.php:131-136 | the INSERT names exactly the dirty columns in order, each with its own named placeholder, and binds their values in the same order |
| Model.UpdateSynchronises | app/core/Model.php:159-177 | a successful update sends the UPDATE of the dirty columns in order, then the key column unless it is itself dirty, and leaves nothing dirty |
| Model.CleanSaveIsSilent | app/core/Model.php:124-129 | saving a freshly constructed record sends nothing and reports success |
| Model.Lifecycle | app/core/Model.php:112-201 | NEW then PERSISTED then DELETED: insert, delete by the assigned key, and a second delete returns false without a statement |
| Router.NewRouter | app/core/Router.php:5-7 | a new router has no routes and the default controller namespace |
| Router.Add | app/core/Router.php:16-27 | `add` appends one route with the given pattern, controller and middleware and the verbs upper-cased, a single verb wrapped into a list |
| Router.UpperAll | app/core/Router.php:24 | every verb is upper-cased, position by position |
| Router.AddVerbsUpper | app/core/Router.php:16-27 | after `add` no registered verb contains a lower-case letter |
| Router.GroupAppends | app/core/Router.php:35-47 | `group` appends the inner routes in their order, each under `prefix/` plus its left-trimmed pattern, with the group middleware before the route's own |
| Router.GroupKeepsVerbs | app/core/Router.php:39-45 | regrouping keeps the verb lists of routes registered through `add` |
| Router.GroupVerbsUpper | app/core/Router.php:35-47 | after `group` no registered verb contains a lower-case letter |
| Router.CompileSegment | app/core/Router.php:90-99 | a segment is a parameter exactly when it is `{name}` with a non-empty name of `[a-zA-Z0-9_]` characters, and then the parameter is named `name`; any other segment is a literal of itself |
| Router.CompileRoute | app/core/Router.php:90-99 | the compiled pattern has one segment per `/`-separated part of the route |
| Router.MatchFrom | app/core/Router.php:63-83 | scanning from a position returns the first route at or after it whose pattern and verb both match, or none if there is none |
| Router.Match | app/core/Router.php:63-83 | `match` returns the first registered route whose pattern matches and whose verb list holds the verb, with that route stored under the `route` parameter, and nothing exactly when no route does |
| Router.CapturesAt | app/core/Router.php:69-73 | each parameter name is captured with the URL segment in its place |
| Router.Params | app/core/Router.php:69-76 | the parameters hold every named capture under its name, except that the key `route` always holds the matched route |
| Router.ParamsSingle | app/core/Router.php:69-76 | a single capture followed by the route: a capture named `route` is replaced by the route |
| Router.MatchCaptures | app/core/Router.php:69-76 | the parameters of a match hold, under each placeholder name, the URL segment in its place; under a placeholder named `route` they hold the matched route instead |
| Router.LiteralMatches | app/core/Router.php:90-99 | a pattern without placeholders matches exactly the URL spelled the same, because the regex is anchored at both ends |
| Router.ParameterRoute | app/core/Router.php:90-99 | `a/b/{name}` matches `a/b/v` for every non-empty value `v` of `[a-zA-Z0-9_-]` characters, capturing `v` under `name` with the route under `route` (which wins when `name` is `route`), and does not match `a/b/` |
| Router.ParameterExample | app/config/routes.php:53 | `atletas/ver/{id}` captures `5` (next to the route under `route`) and `abc-1`, and does not answer `atletas/ver/` |
| Router.VerbExample | app/core/Router.php:63-83 | one pattern registered for GET and for POST dispatches each verb to its own action |
| Router.ControllerAction | app/core/Router.php:156-169 | `C@m` yields the controller `namespace + C` with `/` turned into `\` and the method `m` |
| Router.ControllerOnly | app/core/Router.php:156-169 | without `@` the whole string names the controller and the method is `index` |
| Router.MiddlewareWithArgs | app/core/Router.php:188-190 | `name:a,b` parses to the name and the argument list |
| Router.MiddlewareWithoutArgs | app/core/Router.php:188-190 | a directive without `:` parses to its name and no arguments |
| Router.MiddlewareClass | app/core/Router.php:192 | the middleware class is `App\Middleware\`, then the name with its first letter upper-cased and the rest unchanged, then `Middleware` |
| Router.SetNamespace | app/core/Router.php:240-242 | the namespace ends in exactly one backslash after the right-trimmed argument, and the routes are unchanged |
| Router.SetNamespaceIdempotent | app/core/Router.php:240-242 | setting a namespace twice is setting it once, and a namespace without a trailing backslash gets exactly one |
| Router.NormalizePath | app/core/Router.php:211-212 | the path with its surrounding slashes trimmed, and `/` exactly when the trimmed path is `""` or `"0"`; the result is `/` or non-empty without a slash at either end |
| Router.SlashesTrimmed | app/core/Router.php:211-212 | any number of slashes on either side of a path is dropped, and the slashes inside it are kept |
| Router.NormalizeUrl | app/core/Router.php:208-213 | the URL handed to `match` is the request URI with the root path removed, then normalised; with an empty root path it is the normalised URI; it is `/` or non-empty with no slash at either end |
| Router.RootPathRemoved | app/core/Router.php:209-210 | a root path in front of the URI, occurring nowhere else in it, is removed before normalising |
| Router.NormalizePathIdempotent | app/core/Router.php:211-212 | normalising a normalised path changes nothing |
| Router.TrailingSlashUnreachable | app/core/Router.php:41 | a pattern ending in `/` (other than `/`) matches no normalised URL |
| Router.RootRouteUnreachable | app/config/routes.php:18 | as written, the root route `''` matches no normalised URL, since the empty path becomes `/` |
| Router.GroupIndexUnreachable | app/config/routes.php:23 | as written, a group's index route `prefix/` matches no URL in the form `getUrl` produces, neither `/` nor a path without a trailing slash |
| Router.AddNormalized | app/core/Router.php:16-27 | corrected registration stores the pattern normalised like request URLs |
| Router.NormalizedRouteReachable | app/core/Router.php:208-213 | with normalised registration every literal route, the root included, is reached by the request for its own path |
| Router.GroupIndexReachable | app/core/Router.php:35-47 | with normalised registration a group's index route is stored as the bare prefix and answers `/prefix` |
| Database.Bind | app/core/Database.php:42-48 | the k-th parameter, in iteration order, is bound at position k + 1 |
| Database.Query | app/core/Database.php:38-59 | `query` clears the error flag, binds every parameter in order, sets the flag exactly when execution fails, keeps the previous rows and count on failure, and stores the fetched rows and count on success |
| Database.ActionSql | app/core/Database.php:61-85 | a three-part condition yields a WHERE statement only with a whitelisted operator, and nothing otherwise; any other condition yields `action FROM table` |
| Database.ActionPlaceholders | app/core/Database.php:62-77 | a condition statement carries exactly one placeholder, a plain one none |
| Database.Action | app/core/Database.php:61-85 | `action` prepares nothing and returns false for a rejected operator; otherwise it returns true exactly when execution did not fail, binding the condition's value at position 1 |
| Database.Get | app/core/Database.php:87-89 | `get` sends a `SELECT * FROM table` statement and afterwards `first()` is the first fetched row |
| Database.Delete | app/core/Database.php:91-93 | `delete` sends a `DELETE FROM table` statement and succeeds exactly when the condition is accepted and execution does not fail |
| Database.First | app/core/Database.php:138-140 | `first()` is row 0 of the results, or null when there are none |
| Database.ValuesList | app/core/Database.php:97-106 | the `$values` loop builds one `?` per field separated by `, `, with no trailing separator |
| Database.Insert | app/core/Database.php:95-115 | `insert` sends the INSERT of the columns in key order, binds the field values in the same order, and returns the last insert id exactly when execution did not fail |
| Database.InsertPlaceholders | app/core/Database.php:95-108 | an INSERT has as many placeholders as columns |
| Database.SetList | app/core/Database.php:118-127 | the `$set` loop builds `name = ?` per field separated by `, `, with no trailing separator |
| Database.Update | app/core/Database.php:117-136 | `update` sends the UPDATE of the fields in key order with the id interpolated, binds the values in that order, and returns true exactly when execution did not fail |
| Database.UpdatePlaceholders | app/core/Database.php:117-129 | an UPDATE has as many placeholders as assigned fields |
| ResultadoPrueba.ValorFinal | app/models/ResultadoPrueba.php:70-81 | the final value is the average if present, else the left reading if present, else the right reading; it is missing only when all three are |
| ResultadoPrueba.CalcularPromedio | app/models/ResultadoPrueba.php:96-103 | with both sides present the average becomes their midpoint; otherwise nothing changes; the sides never change |
| ResultadoPrueba.PromedioBetween | app/models/ResultadoPrueba.php:98-100 | the computed average lies between the two sides |
| ResultadoPrueba.PromedioSymmetric | app/models/ResultadoPrueba.php:99 | the average does not depend on which side is which |
| ResultadoPrueba.PromedioIdempotent | app/models/ResultadoPrueba.php:96-103 | computing the average twice gives the same readings as once |
| ResultadoPrueba.FinalAfterPromedio | app/models/ResultadoPrueba.php:70-103 | once averaged, a two-sided result shows the midpoint as its final value, and a one-sided result without an average shows its one side |

## Left out

- Execution of statements: PDO, the connection singleton, transactions and `lastInsertId` are parameters (`Driver`, `Execution`, the id value), not modelled behaviour.
- The exception path of the wrapper: with the connection in exception mode a failing prepare or execute raises instead of returning false. `Database.Query` models the false-returning branches the code contains, and does not model the propagation of the exception.
- The regular-expression engine: route matching is modelled segment by segment. A placeholder inside a longer segment (`a{id}`) and regex metacharacters in literal segments (`.`, `+`) are not modelled, because `compileRoute` escapes only `/`.
- Group names of more than 32 characters, starting with a digit, or repeated: the pattern does not compile and such a route matches nothing (`Router.Compiles`). The warning PHP emits is not modelled.
- `dispatch`, `getMethodParameters`, `notFound` and the instantiation half of `applyMiddleware`: they rely on reflection, class loading and output.
- The superglobals and `URL_ROOT` read by `getUrl`: they become the `uri` and `rootPath` parameters of `Router.NormalizeUrl`.
- `QueryBuilder::get`, `first`, `find` and `runSelect`: they execute statements. `whereNested`, `addArrayOfWheres`, the array-of-conditions form of `where` (an array column), and the pagination and clone helpers are also left out, because they refer to properties the class never declares.
- `select` and `groupBy` called with several string arguments (`func_get_args`): only the array form is modelled.
- PHP arrays with integer-like keys, and `array_merge` renumbering them: every key in the model is a string and every value list is a list.
- Floating point: readings are exact reals, so rounding of `(left + right) / 2` is not modelled. Decimal columns arrive as strings, so `Value` has no float case.
- `Model::find`, `all`, `query`, the magic methods, `toArray`/`toJson` and `getTable`'s reflection fallback: they execute statements or rely on reflection. Each model class's table and key are given as `ModelClass`.
- `ResultadoPrueba` relationships and the session and athlete query helpers: they forward to code outside the core.
- QueryBuilder.Limit: the limit is stored as given. Interpolating a non-integer into `LIMIT` is not modelled, because the model types it as an integer.
- QueryBuilder.Where: the value is a scalar. An array value, which `addBinding` merges into the where bindings one element at a time, is not modelled. With one, the single `?` of the predicate would stand for several bindings, and `QueryBuilder.StatementPlaceholders` would not hold.
- Default arguments: every parameter the source gives a default (`orderBy`'s `'asc'`, `forPage`'s `15`, `add`'s `'GET'`, `where`'s `'and'`) is an explicit parameter of the model. A call that omits it is the model's call with the default written out.
- Model.UpdateRecord: it states that an UPDATE is sent, and `Model.UpdateSynchronises` gives the statement's shape.
- Router.MatchCaptures: a `{route}` placeholder's segment is not available to the action, because `match` writes the route array over it under the same key. The model keeps that overwrite (`Router.Params`), so the contract promises the segment only for the other names.

## Findings

| source | as written | input that shows it | evidently intended | confidence | as-written member | corrected member |
|---|---|---|---|---|---|---|
| app/core/QueryBuilder.php:76-78 | `orWhere` always calls `where` with four arguments, so the two-argument branch of `where` (`func_num_args() === 2`) is never taken | `orWhere('estado', 'activo')` stores operator `activo` and binds `null`, compiling `or estado activo ?` | `or estado = ?` with `activo` bound | high; not executed | QueryBuilder.OrWhereTwoArguments | QueryBuilder.OrWhereEquals |
| app/config/routes.php:18 | the root route is registered with the pattern `''`, but `getUrl` turns the empty path into `/` | a request for the site root reaches `match` as `/`, and `/^$/` does not match it | the dashboard route answers the site root | high; not executed | Router.RootRouteUnreachable | Router.NormalizedRouteReachable |
| app/config/routes.php:23 | a group's index route `''` is registered as `admin/`, but request URLs are trimmed of trailing slashes | `/admin` and `/admin/` both reach `match` as `admin`, which `/^admin\/$/` does not match | `/admin` reaches the admin dashboard | high; not executed | Router.GroupIndexUnreachable | Router.GroupIndexReachable |

=== FILE: database.dfy ===
/** The PDO wrapper: `query` prepares a statement, binds its parameters by
    position and records the outcome; `action`, `get`, `delete`, `insert` and
    `update` build the statement text from a table name, a condition or a field
    array. The connection itself lies outside the model: what it answers for a
    statement is an `Execution` parameter. */
module Database {
  import opened Values
  import Text
  import Assoc
  import Positional

  /** A fetched row (`PDO::FETCH_OBJ`): column names to values, in column order. */
  type Row = seq<(string, Value)>

  /** The wrapper's state: the rows of the last successful statement (`null`
      before the first one), its row count and the error flag. */
  datatype Db = Db(results: Option<seq<Row>>, count: int, error: bool)

  /** The state of a freshly connected wrapper. */
  const Connected: Db := Db(None, 0, false)

  /** What the connection does with one statement. */
  datatype Execution =
    | NotPrepared                             // `prepare` returned false
    | Failed                                  // `execute` returned false
    | Executed(rows: seq<Row>, rowCount: nat) // the fetched rows and `rowCount()`

  /** A prepared statement as handed to the connection: its text and the values
      bound to its positions. */
  datatype Sent = Sent(sql: string, bound: seq<(int, Value)>)

  /** The `bindValue` loop: the k-th parameter, in iteration order, goes to
      position k + 1. */
  method Bind(params: seq<Value>) returns (bound: seq<(int, Value)>)
    ensures |bound| == |params|
    ensures forall i :: 0 <= i < |params| ==> bound[i] == (i + 1, params[i])
  {
    bound := [];
    var x := 1;
    if |params| > 0 {
      for k := 0 to |params|
        invariant |bound| == k && x == k + 1
        invariant forall i :: 0 <= i < k ==> bound[i] == (i + 1, params[i])
      {
        bound := bound + [(x, params[k])];
        x := x + 1;
      }
    }
  }

  /** `query(sql, params)`. The error flag is cleared first; an unprepared
      statement leaves everything else as it was; a failed execution raises the
      flag and keeps the previous rows and count. */
  method Query(db: Db, sql: string, params: seq<Value>, exec: Execution) returns (db': Db, sent: Option<Sent>)
    ensures sent.Some? <==> !exec.NotPrepared?
    ensures sent.Some? ==> sent.value.sql == sql && |sent.value.bound| == |params|
    ensures sent.Some? ==> forall i :: 0 <= i < |params| ==> sent.value.bound[i] == (i + 1, params[i])
    ensures db'.error <==> exec.Failed?
    ensures !exec.Executed? ==> db'.results == db.results && db'.count == db.count
    ensures exec.Executed? ==> db'.results == Some(exec.rows) && db'.count == exec.rowCount
    ensures exec.Executed? ==> First(db') == (if |exec.rows| > 0 then Some(exec.rows[0]) else None)
  {
    db' := db.(error := false);
    sent := None;
    if !exec.NotPrepared? {
      var bound := Bind(params);
      sent := Some(Sent(sql, bound));
      match exec
      case Executed(rows, rowCount) =>
        db' := db'.(results := Some(rows), count := rowCount);
      case Failed =>
        db' := db'.(error := true);
    }
  }

  /** The operators a three-part condition may use. */
  const Operators: seq<string> := ["=", ">", "<", ">=", "<=", "LIKE", "!=", "<>"]

  /** `in_array($operator, $operators)`, a loose comparison: a string passes when
      it equals a listed operator, `true` equals every non-empty string, and
      `null`, `false` and integers equal none of them (no operator is empty or
      numeric). */
  predicate Whitelisted(op: Value)
  {
    match op
    case Str(s) => s in Operators
    case Bool(b) => b
    case _ => false
  }

  /** The text `action` prepares, or `None` when it prepares nothing. */
  function ActionSql(action: string, table: string, condition: seq<Value>): (r: Option<string>)
    ensures r.None? <==> |condition| == 3 && !Whitelisted(condition[1])
    ensures |condition| != 3 ==> r == Some(action + " FROM " + table)
    ensures r.Some? && |condition| == 3 ==>
      Text.StartsWith(r.value, action + " FROM " + table + " WHERE ")
  {
    if |condition| == 3 then
      if Whitelisted(condition[1]) then
        var head := action + " FROM " + table + " WHERE ";
        var sql := head + ToText(condition[0]) + " " + ToText(condition[1]) + " ?";
        assert sql[..|head|] == head;
        Some(sql)
      else None
    else Some(action + " FROM " + table)
  }

  /** A condition carries exactly one placeholder, for its value; a statement
      without condition carries none. */
  lemma ActionPlaceholders(action: string, table: string, condition: seq<Value>)
    requires '?' !in action && '?' !in table
    requires |condition| == 3 ==> '?' !in ToText(condition[0]) && '?' !in ToText(condition[1])
    requires ActionSql(action, table, condition).Some?
    ensures Positional.Placeholders(ActionSql(action, table, condition).value) == (if |condition| == 3 then 1 else 0)
  {
    var base := action + " FROM " + table;
    Text.OccurrencesAppend(action, " FROM ", '?');
    Text.OccurrencesAppend(action + " FROM ", table, '?');
    Text.OccurrencesZero(action, '?');
    Text.OccurrencesZero(table, '?');
    Text.OccurrencesZero(" FROM ", '?');
    if |condition| == 3 {
      var field := ToText(condition[0]);
      var op := ToText(condition[1]);
      Text.OccurrencesZero(" WHERE ", '?');
      Text.OccurrencesZero(field, '?');
      Text.OccurrencesZero(" ", '?');
      Text.OccurrencesZero(op, '?');
      assert Text.Occurrences(" ?", '?') == 1 by {
        assert " ?"[1..] == "?" && "?"[1..] == "";
      }
      Text.OccurrencesAppend(base, " WHERE ", '?');
      Text.OccurrencesAppend(base + " WHERE ", field, '?');
      Text.OccurrencesAppend(base + " WHERE " + field, " ", '?');
      Text.OccurrencesAppend(base + " WHERE " + field + " ", op, '?');
      Text.OccurrencesAppend(base + " WHERE " + field + " " + op, " ?", '?');
    }
  }

  /** `action(action, table, where)`: the wrapper itself (`true` here) when the
      statement ran without error, `false` otherwise, including when the
      operator is not whitelisted, in which case nothing is prepared. */
  method Action(db: Db, action: string, table: string, condition: seq<Value>, exec: Execution)
    returns (db': Db, ok: bool, sent: Option<Sent>)
    ensures ActionSql(action, table, condition).None? ==> db' == db && !ok && sent.None?
    ensures ActionSql(action, table, condition).Some? ==>
      && (ok <==> !exec.Failed?)
      && (sent.Some? <==> !exec.NotPrepared?)
      && (db'.error <==> exec.Failed?)
      && (exec.Executed? ==> db'.results == Some(exec.rows) && db'.count == exec.rowCount)
    ensures sent.Some? ==> sent.value.sql == ActionSql(action, table, condition).value
    ensures sent.Some? && |condition| == 3 ==> sent.value.bound == [(1, condition[2])]
    ensures sent.Some? && |condition| != 3 ==> sent.value.bound == []
  {
    var sql := ActionSql(action, table, condition);
    if sql.None? {
      return db, false, None;
    }
    var params := if |condition| == 3 then [condition[2]] else [];
    db', sent := Query(db, sql.value, params, exec);
    ok := !db'.error;
  }

  /** `get(table, where)`. */
  method Get(db: Db, table: string, condition: seq<Value>, exec: Execution)
    returns (db': Db, ok: bool, sent: Option<Sent>)
    ensures sent.Some? ==> Text.StartsWith(sent.value.sql, "SELECT * FROM " + table)
    ensures ok && exec.Executed? ==> First(db') == (if |exec.rows| > 0 then Some(exec.rows[0]) else None)
    ensures |condition| == 3 && !Whitelisted(condition[1]) ==> !ok && sent.None?
    ensures ok <==> (|condition| != 3 || Whitelisted(condition[1])) && !exec.Failed?
  {
    db', ok, sent := Action(db, "SELECT *", table, condition, exec);
    if sent.Some? {
      var head := "SELECT *" + " FROM " + table;
      assert head == "SELECT * FROM " + table;
      assert sent.value.sql[..|head|] == head;
    }
    if ok && exec.Executed? {
      assert db'.results == Some(exec.rows);
    }
  }

  /** `delete(table, where)`. */
  method Delete(db: Db, table: string, condition: seq<Value>, exec: Execution)
    returns (db': Db, ok: bool, sent: Option<Sent>)
    ensures sent.Some? ==> Text.StartsWith(sent.value.sql, "DELETE FROM " + table)
    ensures |condition| == 3 && !Whitelisted(condition[1]) ==> !ok && sent.None?
    ensures ok <==> (|condition| != 3 || Whitelisted(condition[1])) && !exec.Failed?
  {
    db', ok, sent := Action(db, "DELETE", table, condition, exec);
    if sent.Some? {
      var head := "DELETE" + " FROM " + table;
      assert sent.value.sql[..|head|] == head;
    }
  }

  /** `first()`: the first fetched row, or `null` when there is none. */
  function First(db: Db): (r: Option<Row>)
    ensures r.Some? <==> db.results.Some? && |db.results.value| > 0
    ensures r.Some? ==> r.value == db.results.value[0]
  {
    if db.results.Some? && |db.results.value| > 0 then Some(db.results.value[0]) else None
  }

  // ---------------------------------------------------------------- insert

  /** The INSERT text for the given column names: backquoted names joined by
      `, `, then one placeholder per column. */
  function InsertSql(table: string, columns: seq<string>): string
  {
    "INSERT INTO " + table + " (`" + Text.Join("`, `", columns) + "`) VALUES ("
      + Positional.PlaceholderList(|columns|) + ")"
  }

  /** The `$values` loop of `insert`: a `?` per field, with `, ` after every
      one but the last. */
  method ValuesList(n: nat) returns (values: string)
    ensures values == Positional.PlaceholderList(n)
  {
    values := "";
    var x := 1;
    for k := 0 to n
      invariant x == k + 1
      invariant values == if k == 0 then "" else if k < n then Positional.PlaceholderList(k) + ", " else Positional.PlaceholderList(k)
    {
      if k > 0 {
        Positional.PlaceholderListSnoc(k);
      } else {
        assert Text.Repeat("?", 1) == ["?"];
      }
      values := values + "?";
      if x < n {
        values := values + ", ";
      }
      x := x + 1;
    }
  }

  /** `insert(table, fields)`: the last insert id when the statement ran
      without error, `false` (here `None`) otherwise. The field values are bound
      in the order of their columns. */
  method Insert(db: Db, table: string, fields: seq<(string, Value)>, exec: Execution, lastInsertId: Value)
    returns (db': Db, id: Option<Value>, sent: Option<Sent>)
    ensures sent.Some? <==> !exec.NotPrepared?
    ensures sent.Some? ==> sent.value.sql == InsertSql(table, Assoc.Keys(fields))
    ensures sent.Some? ==> (|sent.value.bound| == |fields|
      && forall i :: 0 <= i < |fields| ==> sent.value.bound[i] == (i + 1, fields[i].1))
    ensures id.Some? <==> !exec.Failed?
    ensures id.Some? ==> id.value == lastInsertId
  {
    var keys := Assoc.Keys(fields);
    var values := ValuesList(|fields|);
    var sql := "INSERT INTO " + table + " (`" + Text.Join("`, `", keys) + "`) VALUES (" + values + ")";
    db', sent := Query(db, sql, Assoc.ValuesOf(fields), exec);
    id := if db'.error then None else Some(lastInsertId);
  }

  /** An INSERT has as many placeholders as columns, provided no name contains one. */
  lemma InsertPlaceholders(table: string, columns: seq<string>)
    requires '?' !in table
    requires forall i :: 0 <= i < |columns| ==> '?' !in columns[i]
    ensures Positional.Placeholders(InsertSql(table, columns)) == |columns|
  {
    var names := Text.Join("`, `", columns);
    Text.JoinFree("`, `", columns, '?');
    var list := Positional.PlaceholderList(|columns|);
    var s1 := "INSERT INTO " + table;
    assert '?' !in s1;
    var s2 := s1 + " (`";
    assert '?' !in s2;
    var s3 := s2 + names;
    assert '?' !in s3;
    var s4 := s3 + "`) VALUES (";
    assert '?' !in s4;
    Text.OccurrencesZero(s4, '?');
    Text.OccurrencesAppend(s4, list, '?');
    Text.OccurrencesAppend(s4 + list, ")", '?');
    assert Text.Occurrences(")", '?') == 0;
  }

  // ---------------------------------------------------------------- update

  /** `name = ?` for each field name. */
  function SetItems(names: seq<string>): (r: seq<string>)
    ensures |r| == |names|
    ensures forall i :: 0 <= i < |names| ==> r[i] == names[i] + " = ?"
  {
    seq(|names|, i requires 0 <= i < |names| => names[i] + " = ?")
  }

  /** The UPDATE text: every field assigned a placeholder, the row selected by
      the interpolated id. */
  function UpdateSql(table: string, names: seq<string>, id: Value): string
  {
    "UPDATE " + table + " SET " + Text.Join(", ", SetItems(names)) + " WHERE id = " + ToText(id)
  }

  /** The `$set` loop of `update`: `name = ?` per field, with `, ` after every
      one but the last. */
  method SetList(names: seq<string>) returns (list: string)
    ensures list == Text.Join(", ", SetItems(names))
  {
    list := "";
    var x := 1;
    var n := |names|;
    for k := 0 to n
      invariant x == k + 1
      invariant list == if k == 0 then "" else if k < n then Text.Join(", ", SetItems(names[..k])) + ", " else Text.Join(", ", SetItems(names[..k]))
    {
      assert SetItems(names[..k + 1]) == SetItems(names[..k]) + [names[k] + " = ?"];
      if k > 0 {
        Text.JoinSnoc(", ", SetItems(names[..k]), names[k] + " = ?");
      }
      list := list + (names[k] + " = ?");
      if x < n {
        list := list + ", ";
      }
      x := x + 1;
    }
    assert names[..n] == names;
  }

  /** `update(table, id, fields)`: true exactly when the statement ran without
      error. The field values are bound in the order of their names. */
  method Update(db: Db, table: string, id: Value, fields: seq<(string, Value)>, exec: Execution)
    returns (db': Db, ok: bool, sent: Option<Sent>)
    ensures sent.Some? <==> !exec.NotPrepared?
    ensures sent.Some? ==> sent.value.sql == UpdateSql(table, Assoc.Keys(fields), id)
    ensures sent.Some? ==> (|sent.value.bound| == |fields|
      && forall i :: 0 <= i < |fields| ==> sent.value.bound[i] == (i + 1, fields[i].1))
    ensures ok <==> !exec.Failed?
  {
    var list := SetList(Assoc.Keys(fields));
    var sql := "UPDATE " + table + " SET " + list + " WHERE id = " + ToText(id);
    db', sent := Query(db, sql, Assoc.ValuesOf(fields), exec);
    ok := !db'.error;
  }

  lemma {:induction false} SetItemsPlaceholders(names: seq<string>)
    requires forall i :: 0 <= i < |names| ==> '?' !in names[i]
    ensures Text.TotalOccurrences(SetItems(names), '?') == |names|
  {
    if |names| > 0 {
      SetItemsPlaceholders(names[1..]);
      assert SetItems(names)[1..] == SetItems(names[1..]);
      Text.OccurrencesZero(names[0], '?');
      assert Text.Occurrences(" = ?", '?') == 1 by {
        assert " = ?"[1..] == "= ?" && "= ?"[1..] == " ?" && " ?"[1..] == "?" && "?"[1..] == "";
      }
      Text.OccurrencesAppend(names[0], " = ?", '?');
    }
  }

  /** An UPDATE has as many placeholders as assigned fields, provided neither
      the names, the table nor the id text contains one. */
  lemma UpdatePlaceholders(table: string, names: seq<string>, id: Value)
    requires '?' !in table && '?' !in ToText(id)
    requires forall i :: 0 <= i < |names| ==> '?' !in names[i]
    ensures Positional.Placeholders(UpdateSql(table, names, id)) == |names|
  {
    var list := Text.Join(", ", SetItems(names));
    SetItemsPlaceholders(names);
    Text.OccurrencesJoin(", ", SetItems(names), '?');
    var s1 := "UPDATE " + table + " SET ";
    assert '?' !in s1;
    var tail := " WHERE id = " + ToText(id);
    assert '?' !in tail;
    Text.OccurrencesZero(s1, '?');
    Text.OccurrencesZero(tail, '?');
    Text.OccurrencesAppend(s1, list, '?');
    Text.OccurrencesAppend(s1 + list, tail, '?');
    assert UpdateSql(table, names, id) == s1 + list + tail;
  }
}

=== FILE: model.dfy ===
/** The active-record base class (app/core/Model.php) as a state transformer.
    A record holds the current attribute array, the snapshot taken at the last
    synchronisation, and whether a database row backs it. Saving and deleting
    return the statement they send to the database together with the new state;
    what the database does with it is a parameter. */
module Model {
  import opened Values
  import Text
  import Assoc

  /** An attribute array: column name to value, in insertion order. */
  type Attributes = seq<(string, Value)>

  datatype Record = Record(attributes: Attributes, original: Attributes, persisted: bool)

  /** The static side of a concrete model class: its table, its primary key
      column, and the values of its zero-argument methods, which `getAttribute`
      falls back to when no attribute of that name is stored. */
  datatype ModelClass = ModelClass(table: string, primaryKey: string, accessors: map<string, Value>)

  /** Both arrays are PHP arrays, so their keys are distinct. */
  predicate Valid(r: Record)
  {
    Assoc.Unique(r.attributes) && Assoc.Unique(r.original)
  }

  // ---------------------------------------------------------------- attributes

  /** `setAttribute(key, value)`. */
  function SetAttribute(r: Record, key: string, value: Value): (r': Record)
    ensures r'.original == r.original && r'.persisted == r.persisted
    ensures Valid(r) ==> Valid(r')
  {
    var r' := r.(attributes := Assoc.Put(r.attributes, key, value));
    if Assoc.Unique(r.attributes) then Assoc.PutUnique(r.attributes, key, value); r' else r'
  }

  /** After `setAttribute(key, value)` the key reads `value` and every other
      attribute reads as before. */
  lemma SetAttributeLookup(r: Record, key: string, value: Value, other: string)
    ensures Assoc.Lookup(SetAttribute(r, key, value).attributes, key) == Some(value)
    ensures other != key ==>
      Assoc.Lookup(SetAttribute(r, key, value).attributes, other) == Assoc.Lookup(r.attributes, other)
  {
    Assoc.PutLookup(r.attributes, key, value, other);
  }

  /** `fill(attributes)`: `setAttribute` for every entry, in order. */
  function Fill(r: Record, attributes: Attributes): (r': Record)
    ensures r'.original == r.original && r'.persisted == r.persisted
    ensures forall k :: k in Assoc.Keys(r'.attributes) <==> k in Assoc.Keys(r.attributes) || k in Assoc.Keys(attributes)
    ensures Valid(r) ==> Valid(r')
    ensures Assoc.Unique(attributes) ==>
      forall k :: k in Assoc.Keys(attributes) ==> Assoc.Lookup(r'.attributes, k) == Assoc.Lookup(attributes, k)
    ensures forall k :: k !in Assoc.Keys(attributes) ==> Assoc.Lookup(r'.attributes, k) == Assoc.Lookup(r.attributes, k)
    decreases |attributes|
  {
    var r' := r.(attributes := Assoc.PutAll(r.attributes, attributes));
    Assoc.PutAllReads(r.attributes, attributes);
    if Assoc.Unique(r.attributes) then Assoc.PutAllUnique(r.attributes, attributes); r' else r'
  }

  /** `new Model(attributes)`: fill, then take the snapshot, so a freshly
      constructed record (in particular one hydrated from a database row) has
      nothing dirty. */
  function New(attributes: Attributes): (r: Record)
    ensures Valid(r) && !r.persisted
    ensures r.original == r.attributes
    ensures forall k :: k in Assoc.Keys(r.attributes) <==> k in Assoc.Keys(attributes)
    ensures Assoc.Unique(attributes) ==> forall k :: Assoc.Lookup(r.attributes, k) == Assoc.Lookup(attributes, k)
  {
    var r := Fill(Record([], [], false), attributes);
    Record(r.attributes, r.attributes, false)
  }

  /** `getAttribute(key, default)`: the stored value first, then a method of
      that name, then the default. */
  function GetAttribute(r: Record, cls: ModelClass, key: string, default: Value): (v: Value)
    ensures Assoc.Lookup(r.attributes, key).Some? ==> v == Assoc.Lookup(r.attributes, key).value
    ensures key !in Assoc.Keys(r.attributes) && key in cls.accessors ==> v == cls.accessors[key]
    ensures key !in Assoc.Keys(r.attributes) && key !in cls.accessors ==> v == default
  {
    match Assoc.Lookup(r.attributes, key)
    case Some(v) => v
    case None => if key in cls.accessors then cls.accessors[key] else default
  }

  /** `getKey()`. */
  function GetKey(r: Record, cls: ModelClass): Value
  {
    GetAttribute(r, cls, cls.primaryKey, Null)
  }

  // ---------------------------------------------------------------- dirty tracking

  /** The entries of `attributes` whose key is missing from `original` or whose
      value is not identical to the original one, in attribute order. */
  function Dirty(attributes: Attributes, original: Attributes): (d: Attributes)
    ensures |d| <= |attributes|
    ensures forall i :: 0 <= i < |d| ==> d[i] in attributes
  {
    if |attributes| == 0 then []
    else
      var e := attributes[0];
      var rest := Dirty(attributes[1..], original);
      assert forall i :: 0 <= i < |rest| ==> rest[i] in attributes;
      (if Assoc.Lookup(original, e.0) != Some(e.1) then [e] else []) + rest
  }

  /** `getDirty()`. */
  function GetDirty(r: Record): Attributes
  {
    Dirty(r.attributes, r.original)
  }

  /** A key is dirty exactly when it is stored and its original value is absent
      or different. */
  lemma {:induction false} DirtyKeys(attributes: Attributes, original: Attributes, k: string)
    requires Assoc.Unique(attributes)
    ensures k in Assoc.Keys(Dirty(attributes, original)) <==>
      Assoc.Lookup(attributes, k).Some? && Assoc.Lookup(original, k) != Assoc.Lookup(attributes, k)
  {
    if |attributes| > 0 {
      var e := attributes[0];
      var tail := attributes[1..];
      var rest := Dirty(tail, original);
      var head: Attributes := if Assoc.Lookup(original, e.0) != Some(e.1) then [e] else [];
      assert Dirty(attributes, original) == head + rest;
      Assoc.KeysAppendIn(head, rest, k);
      assert Assoc.Keys(head) == if head == [] then [] else [e.0];
      assert Assoc.Unique(tail);
      DirtyKeys(tail, original, k);
      if k == e.0 {
        DirtyHeadFresh(attributes, original);
        assert Assoc.Lookup(attributes, k) == Some(e.1);
      } else {
        assert Assoc.Lookup(attributes, k) == Assoc.Lookup(tail, k);
      }
    }
  }

  /** The first key of a unique array never reappears among the dirty entries of the rest. */
  lemma DirtyHeadFresh(attributes: Attributes, original: Attributes)
    requires Assoc.Unique(attributes) && |attributes| > 0
    ensures attributes[0].0 !in Assoc.Keys(Dirty(attributes[1..], original))
  {
    var k := attributes[0].0;
    var tail := attributes[1..];
    var rest := Dirty(tail, original);
    assert k !in Assoc.Keys(tail) by {
      forall i | 0 <= i < |tail| ensures tail[i].0 != k {
        assert tail[i] == attributes[i + 1];
      }
    }
    forall i | 0 <= i < |rest| ensures rest[i].0 != k {
      assert rest[i] in tail;
    }
  }

  /** A dirty entry carries the current value of its attribute. */
  lemma {:induction false} DirtyValues(attributes: Attributes, original: Attributes, i: nat)
    requires Assoc.Unique(attributes)
    requires i < |Dirty(attributes, original)|
    ensures Assoc.Lookup(attributes, Dirty(attributes, original)[i].0) == Some(Dirty(attributes, original)[i].1)
  {
    var e := Dirty(attributes, original)[i];
    var j :| 0 <= j < |attributes| && attributes[j] == e;
    Assoc.LookupAt(attributes, j);
  }

  /** Entries that all read the same in `original` are never dirty. */
  lemma {:induction false} DirtyNone(attributes: Attributes, original: Attributes)
    requires forall i :: 0 <= i < |attributes| ==> Assoc.Lookup(original, attributes[i].0) == Some(attributes[i].1)
    ensures Dirty(attributes, original) == []
  {
    if |attributes| > 0 {
      assert Assoc.Lookup(original, attributes[0].0) == Some(attributes[0].1);
      DirtyNone(attributes[1..], original);
    }
  }

  /** An array compared with itself has nothing dirty. */
  lemma DirtySelf(attributes: Attributes)
    requires Assoc.Unique(attributes)
    ensures Dirty(attributes, attributes) == []
  {
    forall i | 0 <= i < |attributes|
      ensures Assoc.Lookup(attributes, attributes[i].0) == Some(attributes[i].1)
    {
      Assoc.LookupAt(attributes, i);
    }
    DirtyNone(attributes, attributes);
  }

  /** `syncOriginal()`. */
  function SyncOriginal(r: Record): (r': Record)
    ensures r'.attributes == r.attributes && r'.persisted == r.persisted
    ensures Assoc.Unique(r.attributes) ==> GetDirty(r') == []
  {
    var r' := r.(original := r.attributes);
    if Assoc.Unique(r.attributes) then DirtySelf(r.attributes); r' else r'
  }

  /** A freshly constructed record has nothing dirty. */
  lemma NewIsClean(attributes: Attributes)
    ensures GetDirty(New(attributes)) == []
  {
    DirtySelf(New(attributes).attributes);
  }

  /** Setting one attribute on a clean record makes that attribute, and only
      that one, dirty exactly when the value changes. */
  lemma SetAttributeDirty(r: Record, key: string, value: Value, k: string)
    requires Valid(r) && GetDirty(r) == []
    ensures k in Assoc.Keys(GetDirty(SetAttribute(r, key, value))) <==>
      k == key && Assoc.Lookup(r.original, key) != Some(value)
  {
    var r' := SetAttribute(r, key, value);
    DirtyKeys(r'.attributes, r'.original, k);
    DirtyKeys(r.attributes, r.original, k);
    SetAttributeLookup(r, key, value, k);
  }

  /** `isDirty()` with no argument. */
  function IsDirty(r: Record): bool
  {
    |GetDirty(r)| > 0
  }

  /** `isDirty()` holds exactly when some stored attribute differs from its
      snapshot or has none. */
  lemma IsDirtyMeaning(r: Record)
    requires Valid(r)
    ensures IsDirty(r) <==>
      (exists k :: Assoc.Lookup(r.attributes, k).Some? && Assoc.Lookup(r.original, k) != Assoc.Lookup(r.attributes, k))
  {
    var d := GetDirty(r);
    if |d| > 0 {
      DirtyKeys(r.attributes, r.original, d[0].0);
      assert d[0].0 in Assoc.Keys(d) by { assert Assoc.Keys(d)[0] == d[0].0; }
    } else {
      forall k ensures !(Assoc.Lookup(r.attributes, k).Some? && Assoc.Lookup(r.original, k) != Assoc.Lookup(r.attributes, k)) {
        DirtyKeys(r.attributes, r.original, k);
      }
    }
  }

  /** `isDirty(names)`: scans the names and stops at the first dirty one. */
  function IsDirtyAny(r: Record, names: seq<string>): (b: bool)
    ensures b <==> exists i :: 0 <= i < |names| && names[i] in Assoc.Keys(GetDirty(r))
  {
    if |names| == 0 then false
    else if names[0] in Assoc.Keys(GetDirty(r)) then true
    else
      var b := IsDirtyAny(r, names[1..]);
      assert forall i :: 1 <= i < |names| ==> names[i] == names[1..][i - 1];
      b
  }

  // ---------------------------------------------------------------- statements

  /** A statement as handed to the database layer: the SQL text and the values
      in the order `Database::query` binds them. */
  datatype Statement = Statement(sql: string, values: seq<Value>)

  /** What the database call did. The connection raises on failure, so a
      statement either runs or the exception leaves the record untouched. */
  datatype Driver = Succeeds(lastInsertId: Value) | Raises

  datatype Outcome =
    | Returned(ok: bool, record: Record, statement: Option<Statement>)
    | Raised(failed: Statement)

  /** `':' . implode(', :', keys)`: one named placeholder per column. */
  function NamedPlaceholders(keys: seq<string>): string
  {
    ":" + Text.Join(", :", keys)
  }

  function Prefixed(p: string, keys: seq<string>): (r: seq<string>)
    ensures |r| == |keys|
    ensures forall i :: 0 <= i < |keys| ==> r[i] == p + keys[i]
  {
    seq(|keys|, i requires 0 <= i < |keys| => p + keys[i])
  }

  /** The VALUES list names, in column order, one placeholder `:column` per
      column, separated by ", ". */
  lemma {:induction false} NamedPlaceholdersList(keys: seq<string>)
    requires |keys| > 0
    ensures NamedPlaceholders(keys) == Text.Join(", ", Prefixed(":", keys))
  {
    var head := keys[0];
    if |keys| > 1 {
      var tail := keys[1..];
      var rest := Prefixed(":", tail);
      NamedPlaceholdersList(tail);
      assert keys == [head] + tail;
      Text.JoinCons(", :", head, tail);
      assert Text.Join(", :", keys) == head + ", :" + Text.Join(", :", tail);
      assert Prefixed(":", keys) == [":" + head] + rest;
      Text.JoinCons(", ", ":" + head, rest);
      assert Text.Join(", ", Prefixed(":", keys)) == ":" + head + ", " + Text.Join(", ", rest);
      assert Text.Join(", ", rest) == ":" + Text.Join(", :", tail);
      assert NamedPlaceholders(keys) == ":" + head + ", :" + Text.Join(", :", tail);
    } else {
      assert Prefixed(":", keys) == [":" + head];
    }
  }

  /** The INSERT statement `insertRecord` sends for the given dirty entries. */
  function InsertStatement(table: string, dirty: Attributes): Statement
  {
    var keys := Assoc.Keys(dirty);
    Statement("INSERT INTO " + table + " (" + Text.Join(", ", keys) + ") VALUES (" + NamedPlaceholders(keys) + ")",
              Assoc.ValuesOf(dirty))
  }

  /** `"{$key} = :{$key}"` for every dirty key. */
  function Assignments(keys: seq<string>): (r: seq<string>)
    ensures |r| == |keys|
    ensures forall i :: 0 <= i < |keys| ==> r[i] == keys[i] + " = :" + keys[i]
  {
    seq(|keys|, i requires 0 <= i < |keys| => keys[i] + " = :" + keys[i])
  }

  /** The values `updateRecord` passes: the dirty entries, then the key value
      assigned under the key column (in place when the key is itself dirty). */
  function UpdateValues(dirty: Attributes, primaryKey: string, key: Value): (vs: Attributes)
    ensures Assoc.Keys(vs) == if primaryKey in Assoc.Keys(dirty) then Assoc.Keys(dirty)
                              else Assoc.Keys(dirty) + [primaryKey]
  {
    Assoc.Put(dirty, primaryKey, key)
  }

  /** The bound values of an UPDATE: every dirty attribute other than the key
      with its new value, and the key column with the key value. */
  lemma UpdateValuesLookup(dirty: Attributes, primaryKey: string, key: Value, k: string)
    ensures Assoc.Lookup(UpdateValues(dirty, primaryKey, key), primaryKey) == Some(key)
    ensures k != primaryKey ==> Assoc.Lookup(UpdateValues(dirty, primaryKey, key), k) == Assoc.Lookup(dirty, k)
  {
    Assoc.PutLookup(dirty, primaryKey, key, k);
  }

  /** The UPDATE statement `updateRecord` sends. */
  function UpdateStatement(table: string, primaryKey: string, key: Value, dirty: Attributes): Statement
  {
    Statement("UPDATE " + table + " SET " + Text.Join(", ", Assignments(Assoc.Keys(dirty))) +
              " WHERE " + primaryKey + " = :" + primaryKey,
              Assoc.ValuesOf(UpdateValues(dirty, primaryKey, key)))
  }

  /** The DELETE statement `delete` sends. */
  function DeleteStatement(table: string, primaryKey: string, key: Value): (s: Statement)
    ensures s.values == [key]
  {
    Statement("DELETE FROM " + table + " WHERE " + primaryKey + " = ?", [key])
  }

  // ---------------------------------------------------------------- lifecycle

  /** `insertRecord()`. */
  function InsertRecord(r: Record, cls: ModelClass, driver: Driver): (o: Outcome)
    ensures GetDirty(r) == [] ==> o == Returned(true, r, None)
    ensures GetDirty(r) != [] ==> o.Raised? || o.statement.Some?
    ensures GetDirty(r) != [] ==>
      (o.Raised? <==> driver.Raises?) &&
      (o.Returned? ==> o.ok && o.record.persisted && o.statement == Some(InsertStatement(cls.table, GetDirty(r))))
  {
    var dirty := GetDirty(r);
    if |dirty| == 0 then Returned(true, r, None)
    else
      var stmt := InsertStatement(cls.table, dirty);
      match driver
      case Raises => Raised(stmt)
      case Succeeds(id) =>
        var r1 := SetAttribute(r.(persisted := true), cls.primaryKey, id);
        Returned(true, SyncOriginal(r1), Some(stmt))
  }

  /** `updateRecord()`. */
  function UpdateRecord(r: Record, cls: ModelClass, driver: Driver): (o: Outcome)
    ensures GetDirty(r) == [] ==> o == Returned(true, r, None)
    ensures GetDirty(r) != [] ==>
      (o.Raised? <==> driver.Raises?) &&
      (o.Returned? ==> o.ok && o.record.persisted == r.persisted && o.record.attributes == r.attributes
                       && o.statement.Some?)
  {
    var dirty := GetDirty(r);
    if |dirty| == 0 then Returned(true, r, None)
    else
      var stmt := UpdateStatement(cls.table, cls.primaryKey, GetKey(r, cls), dirty);
      match driver
      case Raises => Raised(stmt)
      case Succeeds(_) => Returned(true, SyncOriginal(r), Some(stmt))
  }

  /** `save()`: insert a record without a row, update one with a row. */
  function Save(r: Record, cls: ModelClass, driver: Driver): (o: Outcome)
    ensures !r.persisted ==> o == InsertRecord(r, cls, driver)
    ensures r.persisted ==> o == UpdateRecord(r, cls, driver)
  {
    if r.persisted then UpdateRecord(r, cls, driver) else InsertRecord(r, cls, driver)
  }

  /** `delete()`. */
  function Delete(r: Record, cls: ModelClass, driver: Driver): (o: Outcome)
    ensures !r.persisted ==> o == Returned(false, r, None)
    ensures r.persisted ==>
      (o.Raised? <==> driver.Raises?) &&
      (o.Returned? ==> o.ok && !o.record.persisted && o.record.attributes == r.attributes
                       && o.statement == Some(DeleteStatement(cls.table, cls.primaryKey, GetKey(r, cls))))
  {
    if !r.persisted then Returned(false, r, None)
    else
      var stmt := DeleteStatement(cls.table, cls.primaryKey, GetKey(r, cls));
      match driver
      case Raises => Raised(stmt)
      case Succeeds(_) => Returned(true, r.(persisted := false), Some(stmt))
  }

  /** A successful insert: the record now has a row, its key is the id the
      database assigned, and nothing is dirty any more. */
  lemma InsertPersists(r: Record, cls: ModelClass, id: Value)
    requires Valid(r) && !r.persisted && GetDirty(r) != []
    ensures var o := Save(r, cls, Succeeds(id));
      && o.Returned? && o.ok && o.record.persisted
      && GetKey(o.record, cls) == id
      && GetDirty(o.record) == []
      && Valid(o.record)
  {
    var r1 := SetAttribute(r.(persisted := true), cls.primaryKey, id);
    SetAttributeLookup(r.(persisted := true), cls.primaryKey, id, cls.primaryKey);
  }

  /** The INSERT names exactly the dirty columns, in order, each with its own
      named placeholder, and binds their current values in the same order. */
  lemma InsertStatementShape(r: Record, cls: ModelClass, id: Value)
    requires !r.persisted && GetDirty(r) != []
    ensures var d := GetDirty(r);
      Save(r, cls, Succeeds(id)).statement == Some(Statement(
        "INSERT INTO " + cls.table + " (" + Text.Join(", ", Assoc.Keys(d)) + ") VALUES (" +
        Text.Join(", ", Prefixed(":", Assoc.Keys(d))) + ")",
        Assoc.ValuesOf(d)))
  {
    NamedPlaceholdersList(Assoc.Keys(GetDirty(r)));
  }

  /** A successful update: the SET list assigns exactly the dirty columns, in
      order, the key value is bound under the key column, and afterwards nothing
      is dirty. */
  lemma UpdateSynchronises(r: Record, cls: ModelClass, driver: Driver)
    requires Valid(r) && r.persisted && GetDirty(r) != [] && driver.Succeeds?
    ensures var o := Save(r, cls, driver);
      && o.Returned? && o.ok && o.record.persisted
      && GetDirty(o.record) == []
      && o.statement == Some(UpdateStatement(cls.table, cls.primaryKey, GetKey(r, cls), GetDirty(r)))
      && Assoc.Keys(UpdateValues(GetDirty(r), cls.primaryKey, GetKey(r, cls)))[..|GetDirty(r)|] == Assoc.Keys(GetDirty(r))
  {
  }

  /** Saving a record with nothing dirty sends nothing and reports success,
      whether or not a row backs it; in particular a record constructed from an
      attribute array (as rows are hydrated) is not inserted by `save()`. */
  lemma CleanSaveIsSilent(attributes: Attributes, cls: ModelClass, driver: Driver)
    ensures Save(New(attributes), cls, driver) == Returned(true, New(attributes), None)
  {
    NewIsClean(attributes);
  }

  /** The record lifecycle NEW -> PERSISTED -> DELETED: a new record with dirty
      attributes is inserted, then deleted with its assigned key, and a second
      delete reports failure without sending anything. */
  lemma Lifecycle(r: Record, cls: ModelClass, id: Value, d: Driver)
    requires Valid(r) && !r.persisted && GetDirty(r) != [] && d.Succeeds?
    ensures var saved := Save(r, cls, Succeeds(id));
      && saved.Returned? && saved.record.persisted
      && var deleted := Delete(saved.record, cls, d);
      && deleted.Returned? && deleted.ok && !deleted.record.persisted
      && deleted.statement == Some(DeleteStatement(cls.table, cls.primaryKey, id))
      && Delete(deleted.record, cls, d) == Returned(false, deleted.record, None)
  {
    InsertPersists(r, cls, id);
  }
}

=== FILE: positional.dfy ===
/** Positional `?` parameters. A statement text with n question marks takes n
    bound values, the i-th value going to the i-th question mark from the left.
    `Fill` makes that pairing explicit: it turns the text into a token sequence in
    which every `?` is replaced by the value bound to it, so two texts "receive
    the same values in the same places" exactly when their token sequences agree. */
module Positional {
  import Text

  /** The number of positional placeholders in a statement text. */
  function Placeholders(s: string): nat
  {
    Text.Occurrences(s, '?')
  }

  datatype Token<T> = Chr(c: char) | Slot(v: T)

  /** The text with each `?` replaced, in order, by the value bound to it. */
  function Fill<T>(s: string, vals: seq<T>): (r: seq<Token<T>>)
    requires Placeholders(s) == |vals|
    ensures |r| == |s|
  {
    if |s| == 0 then []
    else if s[0] == '?' then [Slot(vals[0])] + Fill(s[1..], vals[1..])
    else [Chr(s[0])] + Fill(s[1..], vals)
  }

  /** The values bound to the slots of a token sequence, left to right. */
  function Slots<T>(ts: seq<Token<T>>): seq<T>
  {
    if |ts| == 0 then []
    else if ts[0].Slot? then [ts[0].v] + Slots(ts[1..])
    else Slots(ts[1..])
  }

  lemma {:induction false} SlotsAppend<T>(a: seq<Token<T>>, b: seq<Token<T>>)
    ensures Slots(a + b) == Slots(a) + Slots(b)
  {
    if |a| > 0 {
      assert (a + b)[1..] == a[1..] + b;
      SlotsAppend(a[1..], b);
    } else {
      assert a + b == b;
    }
  }

  /** The i-th placeholder receives the i-th value: reading the slots back gives
      the bound values in their original order. */
  lemma {:induction false} FillSlots<T>(s: string, vals: seq<T>)
    requires Placeholders(s) == |vals|
    ensures Slots(Fill(s, vals)) == vals
  {
    if |s| > 0 {
      if s[0] == '?' {
        FillSlots(s[1..], vals[1..]);
        assert ([Slot(vals[0])] + Fill(s[1..], vals[1..]))[1..] == Fill(s[1..], vals[1..]);
      } else {
        FillSlots(s[1..], vals);
        assert ([Chr(s[0])] + Fill(s[1..], vals))[1..] == Fill(s[1..], vals);
      }
    }
  }

  /** Concatenating statement fragments and concatenating their bindings, in the
      same order, binds every fragment's placeholders to its own values. */
  lemma {:induction false} FillAppend<T>(a: string, b: string, va: seq<T>, vb: seq<T>)
    requires Placeholders(a) == |va| && Placeholders(b) == |vb|
    ensures Placeholders(a + b) == |va + vb|
    ensures Fill(a + b, va + vb) == Fill(a, va) + Fill(b, vb)
  {
    Text.OccurrencesAppend(a, b, '?');
    if |a| == 0 {
      assert a + b == b;
      assert va + vb == vb;
    } else {
      var ab := a + b;
      assert ab[0] == a[0];
      assert ab[1..] == a[1..] + b;
      if a[0] == '?' {
        var vab := va + vb;
        assert vab[0] == va[0];
        assert vab[1..] == va[1..] + vb;
        FillAppend(a[1..], b, va[1..], vb);
        assert Fill(ab, vab) == [Slot(va[0])] + Fill(a[1..] + b, va[1..] + vb);
      } else {
        FillAppend(a[1..], b, va, vb);
        assert Fill(ab, va + vb) == [Chr(a[0])] + Fill(a[1..] + b, va + vb);
      }
    }
  }

  /** `implode(', ', array_fill(0, n, '?'))`: n placeholders, comma separated. */
  function PlaceholderList(n: nat): (r: string)
    ensures Placeholders(r) == n
    ensures |r| == if n == 0 then 0 else 3 * n - 2
    ensures forall i :: 0 <= i < |r| ==> r[i] == (if i % 3 == 0 then '?' else if i % 3 == 1 then ',' else ' ')
  {
    PlaceholderListShape(n);
    Text.Join(", ", Text.Repeat("?", n))
  }

  lemma {:induction false} PlaceholderListShape(n: nat)
    ensures Placeholders(Text.Join(", ", Text.Repeat("?", n))) == n
    ensures var r := Text.Join(", ", Text.Repeat("?", n));
      && |r| == (if n == 0 then 0 else 3 * n - 2)
      && forall i :: 0 <= i < |r| ==> r[i] == (if i % 3 == 0 then '?' else if i % 3 == 1 then ',' else ' ')
  {
    if n > 1 {
      PlaceholderListShape(n - 1);
      var tail := Text.Repeat("?", n - 1);
      assert Text.Repeat("?", n) == ["?"] + tail;
      Text.JoinCons(", ", "?", tail);
      var t := Text.Join(", ", tail);
      assert "?" + ", " == "?, ";
      assert Text.Occurrences("?, ", '?') == 1 by {
        assert "?, "[1..] == ", " && ", "[1..] == " " && " "[1..] == "";
      }
      Text.OccurrencesAppend("?, ", t, '?');
      var r := "?, " + t;
      forall i | 0 <= i < |r|
        ensures r[i] == (if i % 3 == 0 then '?' else if i % 3 == 1 then ',' else ' ')
      {
        if i >= 3 {
          assert r[i] == t[i - 3];
          assert (i - 3) % 3 == i % 3;
        }
      }
    } else if n == 1 {
      assert Text.Repeat("?", 1) == ["?"];
    }
  }

  /** The list grows by `, ?` per further placeholder. */
  lemma PlaceholderListSnoc(n: nat)
    requires n > 0
    ensures PlaceholderList(n + 1) == PlaceholderList(n) + ", ?"
  {
    assert Text.Repeat("?", n + 1) == Text.Repeat("?", n) + ["?"];
    Text.JoinSnoc(", ", Text.Repeat("?", n), "?");
  }
}

=== FILE: querybuilder.dfy ===
/** The fluent SQL SELECT builder (app/core/QueryBuilder.php). A query is an
    immutable record of clause descriptors; every builder call returns the
    extended query. Compilation assembles the sections in a fixed order and the
    values travel separately, in a binding list keyed by binding kind. */
module QueryBuilder {
  import opened Values
  import Text
  import Positional

  /** One entry of the where list. A raw predicate keeps the bindings that came
      with it (the source only appends them to the binding list); the compiler
      never reads them, they are what the raw text's placeholders receive. */
  datatype Predicate =
    | Basic(column: string, operator: string, value: Value, boolean: string)
    | InList(column: string, values: seq<Value>, negated: bool, boolean: string)
    | NullTest(column: string, negated: bool, boolean: string)
    | Raw(sql: string, rawBindings: seq<Value>, boolean: string)

  /** A join descriptor; a `null` operator or second key is the empty string. */
  datatype JoinSpec = JoinSpec(table: string, first: string, operator: string, second: string, kind: string)

  datatype Order = Order(column: string, direction: string)

  datatype Query = Query(
    columns: seq<string>,
    from: string,
    wheres: seq<Predicate>,
    joins: seq<JoinSpec>,
    groups: seq<string>,
    orders: seq<Order>,
    limit: Option<int>,
    offset: Option<int>,
    bindings: map<string, seq<Value>>)

  // ---------------------------------------------------------------- bindings

  /** `$this->bindings[kind] ?? []`. */
  function Bindings(q: Query, kind: string): seq<Value>
  {
    if kind in q.bindings then q.bindings[kind] else []
  }

  /** `addBinding(values, kind)`: appends the values to the list of that kind; a
      scalar binding is the one-element list. */
  function AddBinding(q: Query, values: seq<Value>, kind: string): (r: Query)
    ensures Bindings(r, kind) == Bindings(q, kind) + values
    ensures forall k :: k != kind ==> Bindings(r, k) == Bindings(q, k)
    ensures r.wheres == q.wheres && r.joins == q.joins
  {
    q.(bindings := q.bindings[kind := Bindings(q, kind) + values])
  }

  /** `getBindings()`: the where bindings followed by the join bindings. */
  function GetBindings(q: Query): (r: seq<Value>)
    ensures |r| == |Bindings(q, "where")| + |Bindings(q, "join")|
    ensures r[..|Bindings(q, "where")|] == Bindings(q, "where")
    ensures r[|Bindings(q, "where")|..] == Bindings(q, "join")
  {
    Bindings(q, "where") + Bindings(q, "join")
  }

  /** The values a predicate binds, in the order its placeholders appear. */
  function PredicateValues(p: Predicate): seq<Value>
  {
    match p
    case Basic(_, _, v, _) => [v]
    case InList(_, vs, _, _) => vs
    case NullTest(_, _, _) => []
    case Raw(_, bs, _) => bs
  }

  /** The values of all predicates, in insertion order. */
  function WhereValues(ws: seq<Predicate>): seq<Value>
  {
    if |ws| == 0 then [] else WhereValues(ws[..|ws| - 1]) + PredicateValues(ws[|ws| - 1])
  }

  lemma WhereValuesSnoc(ws: seq<Predicate>, p: Predicate)
    ensures WhereValues(ws + [p]) == WhereValues(ws) + PredicateValues(p)
  {
    assert (ws + [p])[..|ws|] == ws;
  }

  /** The builder invariant: the where binding list is exactly the values of the
      where predicates, predicate by predicate, in insertion order. Every where
      operation keeps it; only a direct `addBinding(…, 'where')` can break it. */
  predicate WhereAligned(q: Query)
  {
    Bindings(q, "where") == WhereValues(q.wheres)
  }

  // ---------------------------------------------------------------- builder

  /** `new QueryBuilder(modelClass)` for a model whose table is `table`. */
  function NewQuery(table: string): (q: Query)
    ensures WhereAligned(q) && GetBindings(q) == []
    ensures q.from == table && q.columns == ["*"]
  {
    Query(["*"], table, [], [], [], [], None, None, map[])
  }

  /** `select(columns)`. */
  function Select(q: Query, columns: seq<string>): (r: Query)
    ensures r.columns == columns
    ensures r.wheres == q.wheres && r.bindings == q.bindings
  {
    q.(columns := columns)
  }

  /** Appends a predicate together with its values. */
  function AddPredicate(q: Query, p: Predicate): (r: Query)
    ensures r.wheres == q.wheres + [p]
    ensures Bindings(r, "where") == Bindings(q, "where") + PredicateValues(p)
    ensures forall k :: k != "where" ==> Bindings(r, k) == Bindings(q, k)
    ensures r.joins == q.joins
    ensures WhereAligned(q) ==> WhereAligned(r)
  {
    WhereValuesSnoc(q.wheres, p);
    AddBinding(q.(wheres := q.wheres + [p]), PredicateValues(p), "where")
  }

  /** `where(column, operator, value, boolean)` called with three or four arguments. */
  function Where(q: Query, column: string, operator: string, value: Value, boolean: string): (r: Query)
    ensures r.wheres == q.wheres + [Basic(column, operator, value, boolean)]
    ensures Bindings(r, "where") == Bindings(q, "where") + [value]
    ensures forall k :: k != "where" ==> Bindings(r, k) == Bindings(q, k)
    ensures r.joins == q.joins
    ensures WhereAligned(q) ==> WhereAligned(r)
  {
    AddPredicate(q, Basic(column, operator, value, boolean))
  }

  /** `where(column, value)`: with exactly two arguments the second one is the
      value and the operator is equality. */
  function WhereEquals(q: Query, column: string, value: Value): (r: Query)
    ensures |r.wheres| == |q.wheres| + 1 && r.wheres[..|q.wheres|] == q.wheres
    ensures r.wheres[|q.wheres|] == Basic(column, "=", value, "and")
    ensures Bindings(r, "where") == Bindings(q, "where") + [value]
    ensures forall k :: k != "where" ==> Bindings(r, k) == Bindings(q, k)
    ensures r.joins == q.joins
    ensures WhereAligned(q) ==> WhereAligned(r)
  {
    Where(q, column, "=", value, "and")
  }

  /** `orWhere(column, operator, value)` as written: it always forwards four
      arguments to `where`, so the two-argument branch of `where` is never taken. */
  function OrWhere(q: Query, column: string, operator: string, value: Value): (r: Query)
    ensures |r.wheres| == |q.wheres| + 1 && r.wheres[..|q.wheres|] == q.wheres
    ensures r.wheres[|q.wheres|] == Basic(column, operator, value, "or")
    ensures Bindings(r, "where") == Bindings(q, "where") + [value]
    ensures forall k :: k != "where" ==> Bindings(r, k) == Bindings(q, k)
    ensures r.joins == q.joins
    ensures WhereAligned(q) ==> WhereAligned(r)
  {
    Where(q, column, operator, value, "or")
  }

  /** `orWhere(column, value)` as its author evidently meant it: the
      or-connected counterpart of `where(column, value)`. */
  function OrWhereEquals(q: Query, column: string, value: Value): (r: Query)
    ensures |r.wheres| == |q.wheres| + 1 && r.wheres[..|q.wheres|] == q.wheres
    ensures r.wheres[|q.wheres|] == Basic(column, "=", value, "or")
    ensures var w := WhereEquals(q, column, value).wheres[|q.wheres|];
      w.Basic? && r.wheres[|q.wheres|] == Basic(w.column, w.operator, w.value, "or")
    ensures Bindings(r, "where") == Bindings(WhereEquals(q, column, value), "where")
    ensures forall k :: k != "where" ==> Bindings(r, k) == Bindings(q, k)
    ensures r.joins == q.joins
    ensures WhereAligned(q) ==> WhereAligned(r)
  {
    Where(q, column, "=", value, "or")
  }

  /** The two-argument call `orWhere(column, value)` as written reaches `where`
      with four arguments, so `value` is stored as the operator and `null` is
      bound; the result never equals the intended `column = value` entry. */
  lemma OrWhereTwoArguments(q: Query, column: string, value: string)
    ensures var r := OrWhere(q, column, value, Null);
      && r.wheres[|q.wheres|] == Basic(column, value, Null, "or")
      && Bindings(r, "where") == Bindings(q, "where") + [Null]
      && WhereItem(r.wheres[|q.wheres|]) == "or " + column + " " + value + " ?"
      && r != OrWhereEquals(q, column, Str(value))
  {
    var r := OrWhere(q, column, value, Null);
    assert r.wheres[|q.wheres|] != OrWhereEquals(q, column, Str(value)).wheres[|q.wheres|];
  }

  /** `whereIn(column, values, boolean, not)`. */
  function WhereIn(q: Query, column: string, values: seq<Value>, boolean: string, negated: bool): (r: Query)
    ensures r.wheres == q.wheres + [InList(column, values, negated, boolean)]
    ensures Bindings(r, "where") == Bindings(q, "where") + values
    ensures forall k :: k != "where" ==> Bindings(r, k) == Bindings(q, k)
    ensures r.joins == q.joins
    ensures WhereAligned(q) ==> WhereAligned(r)
  {
    AddPredicate(q, InList(column, values, negated, boolean))
  }

  /** `whereNotIn(column, values, boolean)`. */
  function WhereNotIn(q: Query, column: string, values: seq<Value>, boolean: string): (r: Query)
    ensures r.wheres == q.wheres + [InList(column, values, true, boolean)]
    ensures Bindings(r, "where") == Bindings(q, "where") + values
    ensures forall k :: k != "where" ==> Bindings(r, k) == Bindings(q, k)
    ensures r.joins == q.joins
    ensures WhereAligned(q) ==> WhereAligned(r)
  {
    WhereIn(q, column, values, boolean, true)
  }

  /** `whereNull(column, boolean, not)`: no value is bound. */
  function WhereNull(q: Query, column: string, boolean: string, negated: bool): (r: Query)
    ensures r.wheres == q.wheres + [NullTest(column, negated, boolean)]
    ensures r.bindings == q.bindings
    ensures WhereAligned(q) ==> WhereAligned(r)
  {
    WhereValuesSnoc(q.wheres, NullTest(column, negated, boolean));
    q.(wheres := q.wheres + [NullTest(column, negated, boolean)])
  }

  /** `whereNotNull(column, boolean)`. */
  function WhereNotNull(q: Query, column: string, boolean: string): (r: Query)
    ensures r.wheres == q.wheres + [NullTest(column, true, boolean)]
    ensures r.bindings == q.bindings
    ensures WhereAligned(q) ==> WhereAligned(r)
  {
    WhereNull(q, column, boolean, true)
  }

  /** `whereRaw(sql, bindings, boolean)`: the text is taken verbatim and the
      bindings are appended unchecked. */
  function WhereRaw(q: Query, sql: string, bindings: seq<Value>, boolean: string): (r: Query)
    ensures r.wheres == q.wheres + [Raw(sql, bindings, boolean)]
    ensures Bindings(r, "where") == Bindings(q, "where") + bindings
    ensures forall k :: k != "where" ==> Bindings(r, k) == Bindings(q, k)
    ensures r.joins == q.joins
    ensures WhereAligned(q) ==> WhereAligned(r)
  {
    AddPredicate(q, Raw(sql, bindings, boolean))
  }

  /** The stored direction: exactly "asc" or "desc". */
  function Direction(direction: string): (d: string)
    ensures d == "asc" || d == "desc"
    ensures d == "asc" <==> Text.Lower(direction) == "asc"
  {
    if Text.Lower(direction) == "asc" then "asc" else "desc"
  }

  /** `orderBy(column, direction)`. */
  function OrderBy(q: Query, column: string, direction: string): (r: Query)
    ensures r.orders == q.orders + [Order(column, Direction(direction))]
    ensures r.wheres == q.wheres && r.bindings == q.bindings
  {
    q.(orders := q.orders + [Order(column, Direction(direction))])
  }

  /** `limit(n)`, also reached through `take(n)`. */
  function Limit(q: Query, n: int): (r: Query)
    ensures r.limit == Some(n) && r.offset == q.offset
    ensures r.wheres == q.wheres && r.bindings == q.bindings
  {
    q.(limit := Some(n))
  }

  function Take(q: Query, n: int): (r: Query)
    ensures r == Limit(q, n)
  {
    Limit(q, n)
  }

  /** `offset(n)`, also reached through `skip(n)`. */
  function Offset(q: Query, n: int): (r: Query)
    ensures r.offset == Some(n) && r.limit == q.limit
    ensures r.wheres == q.wheres && r.bindings == q.bindings
  {
    q.(offset := Some(n))
  }

  function Skip(q: Query, n: int): (r: Query)
    ensures r == Offset(q, n)
  {
    Offset(q, n)
  }

  /** `forPage(page, perPage)`: `skip((page - 1) * perPage)->take(perPage)`. */
  function ForPage(q: Query, page: int, perPage: int): (r: Query)
    ensures r.offset == Some((page - 1) * perPage)
    ensures r.limit == Some(perPage)
    ensures r == Limit(Offset(q, (page - 1) * perPage), perPage)
  {
    Take(Skip(q, (page - 1) * perPage), perPage)
  }

  /** `join(table, first, operator, second, type)`. */
  function Join(q: Query, table: string, first: string, operator: string, second: string, kind: string): (r: Query)
    ensures r.joins == q.joins + [JoinSpec(table, first, operator, second, kind)]
    ensures r.wheres == q.wheres && r.bindings == q.bindings
  {
    q.(joins := q.joins + [JoinSpec(table, first, operator, second, kind)])
  }

  function LeftJoin(q: Query, table: string, first: string, operator: string, second: string): (r: Query)
    ensures r.joins == q.joins + [JoinSpec(table, first, operator, second, "left")]
    ensures r.wheres == q.wheres && r.bindings == q.bindings
  {
    Join(q, table, first, operator, second, "left")
  }

  function RightJoin(q: Query, table: string, first: string, operator: string, second: string): (r: Query)
    ensures r.joins == q.joins + [JoinSpec(table, first, operator, second, "right")]
    ensures r.wheres == q.wheres && r.bindings == q.bindings
  {
    Join(q, table, first, operator, second, "right")
  }

  /** `groupBy(columns)`: appends to the columns grouped so far. */
  function GroupBy(q: Query, columns: seq<string>): (r: Query)
    ensures |r.groups| == |q.groups| + |columns|
    ensures r.groups[..|q.groups|] == q.groups
    ensures r.groups[|q.groups|..] == columns
    ensures r.wheres == q.wheres && r.bindings == q.bindings
  {
    q.(groups := q.groups + columns)
  }

  // ---------------------------------------------------------------- compiler

  /** `compileColumns()`. */
  function CompileColumns(columns: seq<string>): string
  {
    if columns == ["*"] then "*" else Text.Join(", ", columns)
  }

  /** `compileWhere<type>(where)`. */
  function Fragment(p: Predicate): string
  {
    match p
    case Basic(column, operator, _, _) => column + " " + operator + " ?"
    case InList(column, values, negated, _) =>
      column + (if negated then " NOT IN (" else " IN (") + Positional.PlaceholderList(|values|) + ")"
    case NullTest(column, negated, _) => column + (if negated then " IS NOT NULL" else " IS NULL")
    case Raw(sql, _, _) => sql
  }

  /** One where entry as `compileWheres` emits it: the stored connector first. */
  function WhereItem(p: Predicate): string
  {
    p.boolean + " " + Fragment(p)
  }

  function WhereItems(ws: seq<Predicate>): (items: seq<string>)
    ensures |items| == |ws|
    ensures forall i :: 0 <= i < |ws| ==> items[i] == WhereItem(ws[i])
  {
    seq(|ws|, i requires 0 <= i < |ws| => WhereItem(ws[i]))
  }

  /** PHP truthiness of a string: only "" and "0" are false. */
  predicate Truthy(s: string)
  {
    s != "" && s != "0"
  }

  /** `compileWheres()`. */
  function CompileWheres(ws: seq<Predicate>): string
  {
    var body := Text.Join(" ", WhereItems(ws));
    "1 = 1" + (if Truthy(body) then " " + body else "")
  }

  /** `compileJoins()`. */
  function CompileJoins(joins: seq<JoinSpec>): string
  {
    Text.Join(" ", seq(|joins|, i requires 0 <= i < |joins| =>
      Text.Upper(joins[i].kind) + " JOIN " + joins[i].table + " ON " +
      joins[i].first + " " + joins[i].operator + " " + joins[i].second))
  }

  /** `compileOrders()`. */
  function CompileOrders(orders: seq<Order>): string
  {
    Text.Join(", ", seq(|orders|, i requires 0 <= i < |orders| => orders[i].column + " " + orders[i].direction))
  }

  /** The sections of a SELECT statement, in the order they are emitted. */
  datatype Keyword = SELECT | FROM | JOIN | WHERE | GROUP_BY | ORDER_BY | LIMIT | OFFSET
  {
    function Rank(): nat
    {
      match this
      case SELECT => 0
      case FROM => 1
      case JOIN => 2
      case WHERE => 3
      case GROUP_BY => 4
      case ORDER_BY => 5
      case LIMIT => 6
      case OFFSET => 7
    }
  }

  datatype Section = Section(keyword: Keyword, text: string)

  /** The keywords of the emitted sections, in emission order. */
  function Keywords(secs: seq<Section>): (ks: seq<Keyword>)
    ensures |ks| == |secs|
    ensures forall i :: 0 <= i < |secs| ==> ks[i] == secs[i].keyword
  {
    seq(|secs|, i requires 0 <= i < |secs| => secs[i].keyword)
  }

  predicate Present(secs: seq<Section>, k: Keyword)
  {
    k in Keywords(secs)
  }

  /** The fixed emission order of the sections. */
  const ClauseOrder: seq<Keyword> := [SELECT, FROM, JOIN, WHERE, GROUP_BY, ORDER_BY, LIMIT, OFFSET]

  /** Whether `compileSelect` emits the section: SELECT and FROM always, the
      list clauses when non-empty, LIMIT and OFFSET when not null. */
  predicate Emits(q: Query, k: Keyword)
  {
    match k
    case SELECT => true
    case FROM => true
    case JOIN => |q.joins| > 0
    case WHERE => |q.wheres| > 0
    case GROUP_BY => |q.groups| > 0
    case ORDER_BY => |q.orders| > 0
    case LIMIT => q.limit.Some?
    case OFFSET => q.offset.Some?
  }

  /** The text `compileSelect` emits for a section. */
  function SectionText(q: Query, k: Keyword): string
  {
    match k
    case SELECT => "SELECT " + CompileColumns(q.columns)
    case FROM => "FROM " + q.from
    case JOIN => CompileJoins(q.joins)
    case WHERE => "WHERE " + CompileWheres(q.wheres)
    case GROUP_BY => "GROUP BY " + Text.Join(", ", q.groups)
    case ORDER_BY => "ORDER BY " + CompileOrders(q.orders)
    case LIMIT => "LIMIT " + Text.IntText(q.limit.GetOr(0))
    case OFFSET => "OFFSET " + Text.IntText(q.offset.GetOr(0))
  }

  /** The keywords of `ks` whose section is emitted, in the order of `ks`. */
  function Emitted(q: Query, ks: seq<Keyword>): seq<Keyword>
  {
    if |ks| == 0 then []
    else (if Emits(q, ks[0]) then [ks[0]] else []) + Emitted(q, ks[1..])
  }

  /** `compileSelect()` before the final implode: the emitted sections in the
      fixed order. */
  function Sections(q: Query): seq<Section>
  {
    SectionsOf(q, Emitted(q, ClauseOrder))
  }

  function SectionsOf(q: Query, ks: seq<Keyword>): (secs: seq<Section>)
    ensures |secs| == |ks|
    ensures forall i :: 0 <= i < |ks| ==> secs[i] == Section(ks[i], SectionText(q, ks[i]))
  {
    seq(|ks|, i requires 0 <= i < |ks| => Section(ks[i], SectionText(q, ks[i])))
  }

  /** Strictly increasing section ranks: no section repeats or comes out of order. */
  predicate Ordered(ks: seq<Keyword>)
  {
    forall i, j :: 0 <= i < j < |ks| ==> ks[i].Rank() < ks[j].Rank()
  }

  /** Filtering keeps exactly the emitted keywords and keeps them in order. */
  lemma {:induction false} EmittedShape(q: Query, ks: seq<Keyword>)
    requires Ordered(ks)
    ensures Ordered(Emitted(q, ks))
    ensures forall k :: k in Emitted(q, ks) <==> k in ks && Emits(q, k)
  {
    if |ks| > 0 {
      EmittedShape(q, ks[1..]);
      var rest := Emitted(q, ks[1..]);
      forall i | 0 <= i < |rest| ensures ks[0].Rank() < rest[i].Rank() {
        assert rest[i] in ks[1..];
      }
      assert ks == [ks[0]] + ks[1..];
    }
  }

  lemma KeywordsOfSections(q: Query)
    ensures Keywords(Sections(q)) == Emitted(q, ClauseOrder)
  {
  }

  lemma SelectFromFirst(q: Query)
    ensures var ks := Emitted(q, ClauseOrder); |ks| >= 2 && ks[0] == SELECT && ks[1] == FROM
  {
    var c := ClauseOrder;
    assert c[0] == SELECT && c[1..][0] == FROM;
    assert c[1..][1..] == c[2..];
    assert Emitted(q, c[1..]) == [FROM] + Emitted(q, c[2..]);
    assert Emitted(q, c) == [SELECT] + ([FROM] + Emitted(q, c[2..]));
  }

  lemma ClauseOrderOrdered()
    ensures Ordered(ClauseOrder)
  {
    assert forall i :: 0 <= i < |ClauseOrder| ==> ClauseOrder[i].Rank() == i;
  }

  lemma EmittedOrdered(q: Query)
    ensures Ordered(Emitted(q, ClauseOrder))
  {
    ClauseOrderOrdered();
    EmittedShape(q, ClauseOrder);
  }

  lemma EmittedPresence(q: Query, k: Keyword)
    ensures k in Emitted(q, ClauseOrder) <==> Emits(q, k)
  {
    ClauseOrderOrdered();
    EmittedShape(q, ClauseOrder);
    assert ClauseOrder[k.Rank()] == k;
  }

  /** The emitted sections come in the fixed order SELECT, FROM, JOIN, WHERE,
      GROUP BY, ORDER BY, LIMIT, OFFSET; SELECT and FROM are always there and
      each other section is there exactly when its clause is set. */
  lemma SectionOrder(q: Query)
    ensures var ks := Keywords(Sections(q));
      && |ks| >= 2 && ks[0] == SELECT && ks[1] == FROM
      && Ordered(ks)
      && (JOIN in ks <==> |q.joins| > 0)
      && (WHERE in ks <==> |q.wheres| > 0)
      && (GROUP_BY in ks <==> |q.groups| > 0)
      && (ORDER_BY in ks <==> |q.orders| > 0)
      && (LIMIT in ks <==> q.limit.Some?)
      && (OFFSET in ks <==> q.offset.Some?)
  {
    KeywordsOfSections(q);
    SelectFromFirst(q);
    EmittedOrdered(q);
    EmittedPresence(q, JOIN);
    EmittedPresence(q, WHERE);
    EmittedPresence(q, GROUP_BY);
    EmittedPresence(q, ORDER_BY);
    EmittedPresence(q, LIMIT);
    EmittedPresence(q, OFFSET);
  }

  function Texts(secs: seq<Section>): (ts: seq<string>)
    ensures |ts| == |secs|
    ensures forall i :: 0 <= i < |secs| ==> ts[i] == secs[i].text
  {
    seq(|secs|, i requires 0 <= i < |secs| => secs[i].text)
  }

  /** `compileSelect()` / `toSql()`. */
  function CompileSelect(q: Query): string
  {
    Text.Join(" ", Texts(Sections(q)))
  }
  // ---------------------------------------------------------------- placeholder alignment

  /** The compiled where entries, each preceded by the space that joins it on. */
  function WhereText(ws: seq<Predicate>): string
  {
    if |ws| == 0 then "" else WhereText(ws[..|ws| - 1]) + " " + WhereItem(ws[|ws| - 1])
  }

  /** The where entries with their joining spaces are the compiled entries,
      each preceded by a space. */
  lemma {:induction false} WhereTextLead(ws: seq<Predicate>)
    ensures WhereText(ws) == Text.Lead(" ", WhereItems(ws))
  {
    if |ws| > 0 {
      WhereTextLead(ws[..|ws| - 1]);
      LeadItemsStep(ws);
    }
  }

  /** Peeling the last entry off the space-led compiled entries. */
  lemma LeadItemsStep(ws: seq<Predicate>)
    requires |ws| > 0
    ensures Text.Lead(" ", WhereItems(ws))
         == Text.Lead(" ", WhereItems(ws[..|ws| - 1])) + " " + WhereItem(ws[|ws| - 1])
  {
    var items := WhereItems(ws);
    WhereItemsPrefix(ws, |ws| - 1);
    assert Text.Lead(" ", items) == Text.Lead(" ", items[..|items| - 1]) + " " + items[|items| - 1];
  }

  /** Compiling a prefix of the predicates gives the prefix of the compiled entries. */
  lemma WhereItemsPrefix(ws: seq<Predicate>, k: nat)
    requires k <= |ws|
    ensures WhereItems(ws[..k]) == WhereItems(ws)[..k]
  {
    var a := WhereItems(ws[..k]);
    var b := WhereItems(ws)[..k];
    assert |a| == |b| == k;
    forall i | 0 <= i < k
      ensures a[i] == b[i]
    {
      assert ws[..k][i] == ws[i];
    }
  }

  lemma WhereTextJoin(ws: seq<Predicate>)
    requires |ws| > 0
    ensures " " + Text.Join(" ", WhereItems(ws)) == WhereText(ws)
  {
    WhereTextLead(ws);
    Text.JoinLead(" ", WhereItems(ws));
  }

  /** With at least one predicate the joined entries are never "" or "0", so
      `compileWheres` always appends them. */
  lemma WhereBodyTruthy(ws: seq<Predicate>)
    requires |ws| > 0
    ensures Truthy(Text.Join(" ", WhereItems(ws)))
  {
    var n := |ws|;
    var p := ws[n - 1];
    var pre := WhereText(ws[..n - 1]);
    var body := Text.Join(" ", WhereItems(ws));
    WhereTextJoin(ws);
    WhereItemSpace(p);
    SpacedTruthy(body, pre, WhereItem(p), |p.boolean|);
  }

  /** A text holding a space is neither "" nor "0". */
  lemma SpacedTruthy(body: string, pre: string, item: string, j: nat)
    requires " " + body == pre + " " + item
    requires j < |item| && item[j] == ' '
    ensures Truthy(body)
  {
    var k := |pre| + j;
    assert (" " + body)[k + 1] == ' ';
    assert body[k] == ' ';
  }

  /** A compiled entry has a space right after its connector. */
  lemma WhereItemSpace(p: Predicate)
    ensures |WhereItem(p)| > |p.boolean| && WhereItem(p)[|p.boolean|] == ' '
  {
  }

  lemma CompileWheresText(ws: seq<Predicate>)
    ensures CompileWheres(ws) == "1 = 1" + WhereText(ws)
  {
    if |ws| > 0 {
      WhereBodyTruthy(ws);
      WhereTextJoin(ws);
    } else {
      assert Text.Join(" ", WhereItems(ws)) == "";
      assert "1 = 1" + "" == "1 = 1";
    }
  }

  /** A predicate whose identifiers and connector carry no `?`, and whose raw text
      has exactly as many `?` as values came with it. */
  predicate WellFormed(p: Predicate)
  {
    '?' !in p.boolean &&
    match p
    case Basic(column, operator, _, _) => '?' !in column && '?' !in operator
    case InList(column, _, _, _) => '?' !in column
    case NullTest(column, _, _) => '?' !in column
    case Raw(sql, bindings, _) => Positional.Placeholders(sql) == |bindings|
  }

  lemma FragmentPlaceholders(p: Predicate)
    requires WellFormed(p)
    ensures Positional.Placeholders(Fragment(p)) == |PredicateValues(p)|
  {
    match p
    case Basic(column, operator, _, _) =>
      var head := column + " " + operator;
      assert Fragment(p) == head + " ?";
      Text.OccurrencesZero(head, '?');
      assert Text.Occurrences(" ?", '?') == 1 by {
        assert " ?"[1..] == "?" && "?"[1..] == "";
      }
      Text.OccurrencesAppend(head, " ?", '?');
    case InList(column, values, negated, _) =>
      var open := column + (if negated then " NOT IN (" else " IN (");
      assert '?' !in open;
      Text.OccurrencesZero(open, '?');
      Text.OccurrencesZero(")", '?');
      Text.OccurrencesAppend(open, Positional.PlaceholderList(|values|), '?');
      Text.OccurrencesAppend(open + Positional.PlaceholderList(|values|), ")", '?');
    case NullTest(column, negated, _) =>
      Text.OccurrencesZero(Fragment(p), '?');
    case Raw(_, _, _) =>
  }

  lemma ItemPlaceholders(p: Predicate)
    requires WellFormed(p)
    ensures Positional.Placeholders(" " + WhereItem(p)) == |PredicateValues(p)|
  {
    var pre := " " + p.boolean + " ";
    assert " " + WhereItem(p) == pre + Fragment(p);
    Text.OccurrencesZero(pre, '?');
    Text.OccurrencesAppend(pre, Fragment(p), '?');
    FragmentPlaceholders(p);
  }

  /** Each predicate's compiled entry with its own values in its own `?` places,
      the entries in insertion order. */
  function PredicateTokens(ws: seq<Predicate>): seq<Positional.Token<Value>>
    requires forall i :: 0 <= i < |ws| ==> WellFormed(ws[i])
  {
    if |ws| == 0 then []
    else
      var p := ws[|ws| - 1];
      ItemPlaceholders(p);
      PredicateTokens(ws[..|ws| - 1]) + Positional.Fill(" " + WhereItem(p), PredicateValues(p))
  }

  lemma {:induction false} WhereTextAligned(ws: seq<Predicate>)
    requires forall i :: 0 <= i < |ws| ==> WellFormed(ws[i])
    ensures Positional.Placeholders(WhereText(ws)) == |WhereValues(ws)|
    ensures Positional.Fill(WhereText(ws), WhereValues(ws)) == PredicateTokens(ws)
  {
    if |ws| > 0 {
      var n := |ws|;
      var init := ws[..n - 1];
      var p := ws[n - 1];
      WhereTextAligned(init);
      ItemPlaceholders(p);
      assert WhereText(ws) == WhereText(init) + (" " + WhereItem(p));
      Positional.FillAppend(WhereText(init), " " + WhereItem(p), WhereValues(init), PredicateValues(p));
    }
  }

  /** The compiled where clause has exactly one `?` per where value, and binding
      the where values in order gives every predicate its own values: the i-th
      predicate's placeholders receive the i-th predicate's values. */
  lemma WheresAligned(ws: seq<Predicate>)
    requires forall i :: 0 <= i < |ws| ==> WellFormed(ws[i])
    ensures Positional.Placeholders(CompileWheres(ws)) == |WhereValues(ws)|
    ensures Positional.Fill(CompileWheres(ws), WhereValues(ws)) == Positional.Fill("1 = 1", []) + PredicateTokens(ws)
  {
    CompileWheresText(ws);
    WhereTextAligned(ws);
    Text.OccurrencesZero("1 = 1", '?');
    Positional.FillAppend("1 = 1", WhereText(ws), [], WhereValues(ws));
    assert [] + WhereValues(ws) == WhereValues(ws);
  }
  /** Identifiers, join descriptors, group and order entries carry no `?` and
      every where predicate is well formed: the only placeholders of the
      statement are the ones the where clause puts there. */
  predicate QueryWellFormed(q: Query)
  {
    && (forall i :: 0 <= i < |q.columns| ==> '?' !in q.columns[i])
    && '?' !in q.from
    && (forall i :: 0 <= i < |q.joins| ==> JoinFree(q.joins[i]))
    && (forall i :: 0 <= i < |q.groups| ==> '?' !in q.groups[i])
    && (forall i :: 0 <= i < |q.orders| ==> '?' !in q.orders[i].column && '?' !in q.orders[i].direction)
    && (forall i :: 0 <= i < |q.wheres| ==> WellFormed(q.wheres[i]))
  }

  predicate JoinFree(j: JoinSpec)
  {
    '?' !in j.table && '?' !in j.first && '?' !in j.operator && '?' !in j.second && '?' !in j.kind
  }

  lemma UpperFree(s: string)
    requires '?' !in s
    ensures '?' !in Text.Upper(s)
  {
    var u := Text.Upper(s);
    forall i | 0 <= i < |u| ensures u[i] != '?' {
      assert u[i] == Text.UpperChar(s[i]);
    }
  }

  lemma IntTextFree(i: int)
    ensures '?' !in Text.IntText(i)
  {
    var t := Text.IntText(i);
    forall k | 0 <= k < |t| ensures t[k] != '?' {
      assert Text.IsDigit(t[k]) || t[k] == '-';
    }
  }

  /** Every section but WHERE is free of placeholders. */
  lemma SectionFree(q: Query, k: Keyword)
    requires QueryWellFormed(q) && k != WHERE
    ensures '?' !in SectionText(q, k)
  {
    match k
    case SELECT =>
      if q.columns != ["*"] {
        Text.JoinFree(", ", q.columns, '?');
      }
    case FROM =>
    case JOIN =>
      var js := q.joins;
      var parts := seq(|js|, i requires 0 <= i < |js| =>
        Text.Upper(js[i].kind) + " JOIN " + js[i].table + " ON " +
        js[i].first + " " + js[i].operator + " " + js[i].second);
      forall i | 0 <= i < |js| ensures '?' !in parts[i] {
        UpperFree(js[i].kind);
      }
      Text.JoinFree(" ", parts, '?');
    case GROUP_BY =>
      Text.JoinFree(", ", q.groups, '?');
    case ORDER_BY =>
      var os := q.orders;
      var parts := seq(|os|, i requires 0 <= i < |os| => os[i].column + " " + os[i].direction);
      Text.JoinFree(", ", parts, '?');
    case LIMIT =>
      IntTextFree(q.limit.GetOr(0));
    case OFFSET =>
      IntTextFree(q.offset.GetOr(0));
  }

  /** Over distinct keywords, the placeholders of the section texts are those of
      the WHERE section, if it is among them. */
  lemma {:induction false} SectionsPlaceholders(q: Query, ks: seq<Keyword>)
    requires QueryWellFormed(q) && Ordered(ks)
    ensures Text.TotalOccurrences(Texts(SectionsOf(q, ks)), '?')
         == if WHERE in ks then Positional.Placeholders(SectionText(q, WHERE)) else 0
  {
    if |ks| > 0 {
      SectionsPlaceholders(q, ks[1..]);
      assert Texts(SectionsOf(q, ks))[1..] == Texts(SectionsOf(q, ks[1..]));
      assert ks[0] !in ks[1..] by {
        forall j | 0 <= j < |ks[1..]| ensures ks[1..][j] != ks[0] {
          assert ks[1..][j] == ks[j + 1];
        }
      }
      assert ks == [ks[0]] + ks[1..];
      if ks[0] != WHERE {
        SectionFree(q, ks[0]);
        Text.OccurrencesZero(SectionText(q, ks[0]), '?');
      }
    }
  }

  lemma SectionsWherePlaceholders(q: Query)
    requires QueryWellFormed(q)
    ensures Text.TotalOccurrences(Texts(Sections(q)), '?') == |WhereValues(q.wheres)|
  {
    var ks := Emitted(q, ClauseOrder);
    EmittedOrdered(q);
    EmittedPresence(q, WHERE);
    SectionsPlaceholders(q, ks);
    if |q.wheres| > 0 {
      WhereSectionPlaceholders(q);
    } else {
      assert WhereValues(q.wheres) == [];
    }
  }

  /** The WHERE section holds one `?` per where value. */
  lemma WhereSectionPlaceholders(q: Query)
    requires QueryWellFormed(q)
    ensures Positional.Placeholders(SectionText(q, WHERE)) == |WhereValues(q.wheres)|
  {
    WheresAligned(q.wheres);
    Text.OccurrencesZero("WHERE ", '?');
    Text.OccurrencesAppend("WHERE ", CompileWheres(q.wheres), '?');
  }

  /** The whole statement has exactly one `?` per value `getBindings()` returns,
      for a query built through the where operations (so its where bindings
      are aligned) that never received join bindings. */
  lemma StatementPlaceholders(q: Query)
    requires QueryWellFormed(q) && WhereAligned(q) && Bindings(q, "join") == []
    ensures Positional.Placeholders(CompileSelect(q)) == |GetBindings(q)|
  {
    SectionsWherePlaceholders(q);
    Text.OccurrencesJoin(" ", Texts(Sections(q)), '?');
  }
}

=== FILE: resultado.dfy ===
/** The value rules of a test result: a reading may be taken on the left side,
    the right side, or both, and an average is stored once both sides exist.
    Readings are exact reals; a missing reading (`null`) is `None`. */
module ResultadoPrueba {
  import opened Values

  /** The three nullable readings of a result (`valor_izquierdo`,
      `valor_derecho`, `valor_promedio`). */
  datatype Readings = Readings(izquierdo: Option<real>, derecho: Option<real>, promedio: Option<real>)

  /** `getValorFinalAttribute()`: the average, else the left reading, else the
      right reading. */
  function ValorFinal(r: Readings): (v: Option<real>)
    ensures v.Some? <==> r.promedio.Some? || r.izquierdo.Some? || r.derecho.Some?
    ensures v.Some? ==> v == r.promedio || v == r.izquierdo || v == r.derecho
    ensures r.promedio.Some? ==> v == r.promedio
    ensures r.promedio.None? && r.izquierdo.Some? ==> v == r.izquierdo
  {
    if r.promedio.Some? then r.promedio
    else if r.izquierdo.Some? then r.izquierdo
    else r.derecho
  }

  /** `tieneAmbosLados()`. */
  predicate TieneAmbosLados(r: Readings)
  {
    r.izquierdo.Some? && r.derecho.Some?
  }

  /** `calcularPromedio()`: with both sides present the average becomes their
      mean; otherwise nothing changes. The sides themselves never change. */
  function CalcularPromedio(r: Readings): (r': Readings)
    ensures r'.izquierdo == r.izquierdo && r'.derecho == r.derecho
    ensures !TieneAmbosLados(r) ==> r' == r
    ensures TieneAmbosLados(r) ==>
      && r'.promedio.Some?
      && r'.promedio.value - r.izquierdo.value == r.derecho.value - r'.promedio.value
  {
    if TieneAmbosLados(r) then
      r.(promedio := Some((r.izquierdo.value + r.derecho.value) / 2.0))
    else r
  }

  function Min(a: real, b: real): real { if a <= b then a else b }
  function Max(a: real, b: real): real { if a <= b then b else a }

  /** The computed average lies between the two sides. */
  lemma PromedioBetween(r: Readings)
    requires TieneAmbosLados(r)
    ensures var p := CalcularPromedio(r).promedio.value;
      Min(r.izquierdo.value, r.derecho.value) <= p <= Max(r.izquierdo.value, r.derecho.value)
  {
  }

  /** The average does not depend on which side is which. */
  lemma PromedioSymmetric(r: Readings)
    ensures CalcularPromedio(r.(izquierdo := r.derecho, derecho := r.izquierdo)).promedio
         == CalcularPromedio(r).promedio
  {
  }

  /** Averaging twice gives the same readings as averaging once. */
  lemma PromedioIdempotent(r: Readings)
    ensures CalcularPromedio(CalcularPromedio(r)) == CalcularPromedio(r)
  {
  }

  /** Once averaged, a result with both sides shows the average as its final
      value; a result with one side shows its stored average if any, else that
      side. */
  lemma FinalAfterPromedio(r: Readings)
    ensures TieneAmbosLados(r) ==>
      ValorFinal(CalcularPromedio(r)) == Some((r.izquierdo.value + r.derecho.value) / 2.0)
    ensures !TieneAmbosLados(r) && r.promedio.None? ==>
      ValorFinal(CalcularPromedio(r)) == (if r.izquierdo.Some? then r.izquierdo else r.derecho)
  {
  }
}

=== FILE: router.dfy ===
/** The request router (app/core/Router.php): an ordered route table, route
    groups, pattern matching with named parameters, and the string handling
    around dispatch (controller and method names, middleware directives,
    namespace, URL normalisation).

    Patterns are matched segment by segment over the `/`-separated path. A
    segment that is exactly `{name}` with `name` made of letters, digits and
    `_` is a parameter: it matches a non-empty run of letters, digits, `_` and
    `-` and is captured under `name`. Every other segment matches itself. */
module Router {
  import Text
  import opened Values

  datatype Route = Route(pattern: string, controller: string, methods: seq<string>, middleware: seq<string>)

  datatype Router = Router(routes: seq<Route>, namespace: string)

  /** The verbs argument of `add`: a single verb string or a list of verbs. */
  datatype Verbs = One(verb: string) | Many(verbs: seq<string>)

  const DefaultNamespace: string := "App\\Controllers\\"

  function NewRouter(): (r: Router)
    ensures r.routes == [] && r.namespace == DefaultNamespace
  {
    Router([], DefaultNamespace)
  }

  // ---------------------------------------------------------------- registration

  function VerbList(verbs: Verbs): seq<string>
  {
    match verbs
    case One(v) => [v]
    case Many(vs) => vs
  }

  /** `array_map('strtoupper', verbs)`. */
  function UpperAll(verbs: seq<string>): (r: seq<string>)
    ensures |r| == |verbs|
    ensures forall i :: 0 <= i < |verbs| ==> r[i] == Text.Upper(verbs[i])
  {
    seq(|verbs|, i requires 0 <= i < |verbs| => Text.Upper(verbs[i]))
  }

  /** No verb of any route holds a lower-case ASCII letter. */
  predicate VerbsUpper(routes: seq<Route>)
  {
    forall i, j :: 0 <= i < |routes| && 0 <= j < |routes[i].methods| ==>
      forall k :: 0 <= k < |routes[i].methods[j]| ==> !Text.IsLowerAscii(routes[i].methods[j][k])
  }

  /** Upper-casing a string without lower-case letters changes nothing. */
  lemma UpperFixed(s: string)
    requires forall k :: 0 <= k < |s| ==> !Text.IsLowerAscii(s[k])
    ensures Text.Upper(s) == s
  {
  }

  /** `add(pattern, controller, verbs, middleware)`: appends one route. */
  function Add(rt: Router, pattern: string, controller: string, verbs: Verbs, middleware: seq<string>): (r: Router)
    ensures |r.routes| == |rt.routes| + 1 && r.routes[..|rt.routes|] == rt.routes
    ensures r.routes[|rt.routes|].pattern == pattern && r.routes[|rt.routes|].controller == controller
    ensures r.routes[|rt.routes|].middleware == middleware
    ensures r.routes[|rt.routes|].methods == UpperAll(VerbList(verbs))
    ensures r.namespace == rt.namespace
  {
    rt.(routes := rt.routes + [Route(pattern, controller, UpperAll(VerbList(verbs)), middleware)])
  }

  /** Every registered verb is upper case, however it was written. */
  lemma AddVerbsUpper(rt: Router, pattern: string, controller: string, verbs: Verbs, middleware: seq<string>)
    requires VerbsUpper(rt.routes)
    ensures VerbsUpper(Add(rt, pattern, controller, verbs, middleware).routes)
  {
    var r := Add(rt, pattern, controller, verbs, middleware);
    var n := |rt.routes|;
    forall i, j, k | 0 <= i < |r.routes| && 0 <= j < |r.routes[i].methods| && 0 <= k < |r.routes[i].methods[j]|
      ensures !Text.IsLowerAscii(r.routes[i].methods[j][k])
    {
      if i == n {
        assert r.routes[i].methods[j] == Text.Upper(VerbList(verbs)[j]);
      } else {
        assert r.routes[i] == rt.routes[i];
      }
    }
  }

  /** The pattern a group registers for an inner route. */
  function GroupPattern(prefix: string, pattern: string): string
  {
    prefix + "/" + Text.TrimLeft(pattern, '/')
  }

  /** What `group` registers for one inner route. */
  function GroupRoute(prefix: string, middleware: seq<string>, route: Route): Route
  {
    Route(GroupPattern(prefix, route.pattern), route.controller, UpperAll(route.methods), middleware + route.middleware)
  }

  /** `group(prefix, callback, middleware)`: `inner` are the routes the callback
      registered on a fresh router; each is added in turn. */
  function Group(rt: Router, prefix: string, inner: seq<Route>, middleware: seq<string>): (r: Router)
    ensures r.namespace == rt.namespace
    decreases |inner|
  {
    if |inner| == 0 then rt
    else
      var route := inner[0];
      Group(Add(rt, GroupPattern(prefix, route.pattern), route.controller, Many(route.methods), middleware + route.middleware),
            prefix, inner[1..], middleware)
  }

  /** What `group` registers for the inner routes, in order. */
  function GroupRoutes(prefix: string, middleware: seq<string>, inner: seq<Route>): (rs: seq<Route>)
    ensures |rs| == |inner|
    ensures forall i :: 0 <= i < |inner| ==> rs[i] == GroupRoute(prefix, middleware, inner[i])
  {
    seq(|inner|, i requires 0 <= i < |inner| => GroupRoute(prefix, middleware, inner[i]))
  }

  /** A group appends, in the order they were registered inside it, every inner
      route under the prefixed pattern and with the group middleware first. */
  lemma {:induction false} GroupAppends(rt: Router, prefix: string, inner: seq<Route>, middleware: seq<string>)
    ensures Group(rt, prefix, inner, middleware).routes == rt.routes + GroupRoutes(prefix, middleware, inner)
    decreases |inner|
  {
    if |inner| > 0 {
      var route := inner[0];
      var rt1 := Add(rt, GroupPattern(prefix, route.pattern), route.controller, Many(route.methods), middleware + route.middleware);
      var head := GroupRoute(prefix, middleware, route);
      var rest := GroupRoutes(prefix, middleware, inner[1..]);
      assert Group(rt, prefix, inner, middleware) == Group(rt1, prefix, inner[1..], middleware);
      GroupAppends(rt1, prefix, inner[1..], middleware);
      AddGroupRoute(rt, prefix, middleware, route);
      GroupRoutesCons(prefix, middleware, inner);
      assert rt.routes + [head] + rest == rt.routes + ([head] + rest);
    } else {
      assert GroupRoutes(prefix, middleware, inner) == [];
    }
  }

  /** Adding one inner route through `add` appends what `group` registers for it. */
  lemma AddGroupRoute(rt: Router, prefix: string, middleware: seq<string>, route: Route)
    ensures Add(rt, GroupPattern(prefix, route.pattern), route.controller, Many(route.methods), middleware + route.middleware).routes
         == rt.routes + [GroupRoute(prefix, middleware, route)]
  {
  }

  lemma GroupRoutesCons(prefix: string, middleware: seq<string>, inner: seq<Route>)
    requires |inner| > 0
    ensures GroupRoutes(prefix, middleware, inner)
         == [GroupRoute(prefix, middleware, inner[0])] + GroupRoutes(prefix, middleware, inner[1..])
  {
  }

  /** Routes registered through `add` keep their verbs exactly when regrouped. */
  lemma GroupKeepsVerbs(prefix: string, middleware: seq<string>, route: Route)
    requires forall k, j :: 0 <= j < |route.methods| && 0 <= k < |route.methods[j]| ==> !Text.IsLowerAscii(route.methods[j][k])
    ensures GroupRoute(prefix, middleware, route).methods == route.methods
  {
    forall j | 0 <= j < |route.methods| ensures Text.Upper(route.methods[j]) == route.methods[j] {
      UpperFixed(route.methods[j]);
    }
  }

  // ---------------------------------------------------------------- patterns

  /** Characters allowed in a placeholder name. */
  predicate IsNameChar(c: char)
  {
    'a' <= c <= 'z' || 'A' <= c <= 'Z' || '0' <= c <= '9' || c == '_'
  }

  /** Characters a placeholder matches. */
  predicate IsValueChar(c: char)
  {
    IsNameChar(c) || c == '-'
  }

  datatype Segment = Lit(text: string) | Param(name: string)

  /** A whole segment of the form `{name}` with a non-empty name of
      `[a-zA-Z0-9_]` characters, the only form the placeholder rewrite matches
      as a full segment. */
  predicate IsPlaceholder(s: string)
  {
    |s| >= 3 && s[0] == '{' && s[|s| - 1] == '}' && forall i :: 1 <= i < |s| - 1 ==> IsNameChar(s[i])
  }

  /** One `/`-separated piece of a pattern, compiled. */
  function CompileSegment(s: string): (seg: Segment)
    ensures seg.Lit? ==> seg.text == s
    ensures seg.Param? ==> s == "{" + seg.name + "}" && |seg.name| > 0
    ensures seg.Param? ==> forall i :: 0 <= i < |seg.name| ==> IsNameChar(seg.name[i])
    ensures IsPlaceholder(s) ==> seg == Param(s[1..|s| - 1])
    ensures !IsPlaceholder(s) ==> seg == Lit(s)
  {
    if IsPlaceholder(s) then
      assert s == "{" + s[1..|s| - 1] + "}";
      Param(s[1..|s| - 1])
    else Lit(s)
  }

  /** `compileRoute(pattern)`, segment-wise. */
  function CompileRoute(pattern: string): (segs: seq<Segment>)
    ensures |segs| == |Text.Split(pattern, '/')|
    ensures forall i :: 0 <= i < |segs| ==> segs[i] == CompileSegment(Text.Split(pattern, '/')[i])
  {
    var parts := Text.Split(pattern, '/');
    seq(|parts|, i requires 0 <= i < |parts| => CompileSegment(parts[i]))
  }

  /** The regular expression compiles: group names start with a non-digit, are
      at most 32 characters long and are pairwise distinct. A pattern that does
      not compile matches nothing. */
  predicate Compiles(segs: seq<Segment>)
  {
    && (forall i :: 0 <= i < |segs| && segs[i].Param? ==>
          0 < |segs[i].name| <= 32 && !Text.IsDigit(segs[i].name[0]))
    && (forall i, j :: 0 <= i < j < |segs| && segs[i].Param? && segs[j].Param? ==> segs[i].name != segs[j].name)
  }

  predicate SegmentMatches(seg: Segment, s: string)
  {
    match seg
    case Lit(t) => s == t
    case Param(_) => |s| > 0 && forall k :: 0 <= k < |s| ==> IsValueChar(s[k])
  }

  /** `preg_match(compileRoute(pattern), url)`: the whole URL, anchored at both ends. */
  predicate PatternMatches(pattern: string, url: string)
  {
    var segs := CompileRoute(pattern);
    var parts := Text.Split(url, '/');
    && Compiles(segs)
    && |parts| == |segs|
    && forall i :: 0 <= i < |segs| ==> SegmentMatches(segs[i], parts[i])
  }

  /** The named captures: each parameter segment's name mapped to the URL
      segment in its place. */
  function Captures(segs: seq<Segment>, parts: seq<string>): map<string, string>
    requires |segs| == |parts|
  {
    if |segs| == 0 then map[]
    else
      var rest := Captures(segs[1..], parts[1..]);
      if segs[0].Param? then rest[segs[0].name := parts[0]] else rest
  }

  lemma {:induction false} CapturesAt(segs: seq<Segment>, parts: seq<string>, j: nat)
    requires |segs| == |parts| && Compiles(segs)
    requires j < |segs| && segs[j].Param?
    ensures segs[j].name in Captures(segs, parts)
    ensures Captures(segs, parts)[segs[j].name] == parts[j]
  {
    if j > 0 {
      assert Compiles(segs[1..]);
      CapturesAt(segs[1..], parts[1..], j - 1);
    }
  }

  /** A route answers a request when its pattern matches the URL and its verb
      list holds the request verb. */
  predicate Hits(route: Route, url: string, verb: string)
  {
    PatternMatches(route.pattern, url) && verb in route.methods
  }

  /** A value of the router's `params` array: a captured URL segment, or the
      matched route, which `match` stores under the key `route`. */
  datatype Param = Captured(segment: string) | MatchedRoute(route: Route)

  const RouteKey: string := "route"

  /** The `params` array after a match: the named captures first, then the
      route under `route`, which replaces a capture of that name. */
  function Params(captures: map<string, string>, route: Route): (p: map<string, Param>)
    ensures RouteKey in p && p[RouteKey] == MatchedRoute(route)
    ensures forall k :: k != RouteKey ==> (k in p <==> k in captures)
    ensures forall k :: k in captures && k != RouteKey ==> p[k] == Captured(captures[k])
  {
    (map k | k in captures :: Captured(captures[k]))[RouteKey := MatchedRoute(route)]
  }

  /** One capture `name`, then the route: a capture named `route` is lost. */
  lemma ParamsSingle(name: string, value: string, route: Route)
    ensures Params(map[name := value], route) == map[name := Captured(value)][RouteKey := MatchedRoute(route)]
  {
    var p := Params(map[name := value], route);
    var q := map[name := Captured(value)][RouteKey := MatchedRoute(route)];
    assert p.Keys == q.Keys;
  }

  datatype Hit = Hit(index: nat, route: Route, params: map<string, Param>)

  function HitAt(routes: seq<Route>, i: nat, url: string): (h: Hit)
    requires i < |routes| && PatternMatches(routes[i].pattern, url)
  {
    Hit(i, routes[i], Params(Captures(CompileRoute(routes[i].pattern), Text.Split(url, '/')), routes[i]))
  }

  function MatchFrom(routes: seq<Route>, url: string, verb: string, i: nat): (r: Option<Hit>)
    requires i <= |routes|
    ensures r.Some? ==> (i <= r.value.index < |routes| && Hits(routes[r.value.index], url, verb)
      && r.value == HitAt(routes, r.value.index, url)
      && forall j :: i <= j < r.value.index ==> !Hits(routes[j], url, verb))
    ensures r.None? ==> forall j :: i <= j < |routes| ==> !Hits(routes[j], url, verb)
    decreases |routes| - i
  {
    if i == |routes| then None
    else if Hits(routes[i], url, verb) then Some(HitAt(routes, i, url))
    else MatchFrom(routes, url, verb, i + 1)
  }

  /** `match(url, method)`: the first route in registration order that
      answers the request, with its captured parameters; none if no route does. */
  function Match(rt: Router, url: string, verb: string): (r: Option<Hit>)
    ensures r.Some? ==> (r.value.index < |rt.routes| && r.value.route == rt.routes[r.value.index]
      && Hits(r.value.route, url, verb)
      && RouteKey in r.value.params && r.value.params[RouteKey] == MatchedRoute(r.value.route)
      && forall j :: 0 <= j < r.value.index ==> !Hits(rt.routes[j], url, verb))
    ensures r.None? <==> forall j :: 0 <= j < |rt.routes| ==> !Hits(rt.routes[j], url, verb)
  {
    MatchFrom(rt.routes, url, verb, 0)
  }

  /** Every parameter of the winning pattern is captured with the URL segment
      in its place, except one named `route`, whose entry holds the route. */
  lemma MatchCaptures(rt: Router, url: string, verb: string, j: nat)
    requires Match(rt, url, verb).Some?
    requires var segs := CompileRoute(Match(rt, url, verb).value.route.pattern);
      j < |segs| && segs[j].Param?
    ensures var h := Match(rt, url, verb).value;
      var segs := CompileRoute(h.route.pattern);
      && segs[j].name in h.params
      && (segs[j].name != RouteKey ==> h.params[segs[j].name] == Captured(Text.Split(url, '/')[j]))
      && (segs[j].name == RouteKey ==> h.params[segs[j].name] == MatchedRoute(h.route))
  {
    var h := Match(rt, url, verb).value;
    CapturesAt(CompileRoute(h.route.pattern), Text.Split(url, '/'), j);
  }

  /** A pattern without parameter segments. */
  predicate Literal(pattern: string)
  {
    forall i :: 0 <= i < |Text.Split(pattern, '/')| ==> CompileSegment(Text.Split(pattern, '/')[i]).Lit?
  }

  /** A pattern without parameters matches exactly the URL spelled the same. */
  lemma LiteralMatches(pattern: string, url: string)
    requires Literal(pattern)
    ensures PatternMatches(pattern, url) <==> url == pattern
  {
    var ps := Text.Split(pattern, '/');
    var us := Text.Split(url, '/');
    Text.JoinSplit(pattern, '/');
    Text.JoinSplit(url, '/');
    if PatternMatches(pattern, url) {
      assert forall i :: 0 <= i < |ps| ==> us[i] == ps[i];
      assert us == ps;
    }
    if url == pattern {
      assert forall i :: 0 <= i < |ps| ==> SegmentMatches(CompileRoute(pattern)[i], us[i]);
    }
  }

  // ---------------------------------------------------------------- dispatch strings

  /** `getController(controller)`: the part before the first `@`, with `/`
      turned into `\`, under the namespace. */
  function GetController(rt: Router, controller: string): string
  {
    rt.namespace + Text.ReplaceChar(Text.Split(controller, '@')[0], '/', '\\')
  }

  /** `getMethod(controller)`: the part after the first `@`, or `index`. */
  function GetMethod(controller: string): string
  {
    var parts := Text.Split(controller, '@');
    if |parts| > 1 then parts[1] else "index"
  }

  /** `Controller@method` splits back into its two halves. */
  lemma ControllerAction(rt: Router, c: string, m: string)
    requires '@' !in c && '@' !in m
    ensures GetController(rt, c + "@" + m) == rt.namespace + Text.ReplaceChar(c, '/', '\\')
    ensures GetMethod(c + "@" + m) == m
  {
    Text.SplitJoin([c, m], '@');
    assert Text.Join("@", [c, m]) == c + "@" + m;
  }

  /** Without `@` the whole string names the controller and the method is `index`. */
  lemma ControllerOnly(rt: Router, c: string)
    requires '@' !in c
    ensures GetController(rt, c) == rt.namespace + Text.ReplaceChar(c, '/', '\\')
    ensures GetMethod(c) == "index"
  {
    Text.SplitJoin([c], '@');
  }

  /** A middleware directive: the handler name and its arguments. */
  datatype Directive = Directive(name: string, args: seq<string>)

  /** The parsing half of `applyMiddleware`: `name` or `name:a,b`. */
  function ParseMiddleware(m: string): Directive
  {
    var parts := Text.Split(m, ':');
    Directive(parts[0], if |parts| > 1 then Text.Split(parts[1], ',') else [])
  }

  /** `'App\Middleware\' . ucfirst(name) . 'Middleware'`. */
  function MiddlewareClass(name: string): (c: string)
    ensures Text.StartsWith(c, "App\\Middleware\\")
    ensures |c| == |"App\\Middleware\\"| + |name| + |"Middleware"|
    ensures c[|"App\\Middleware\\"|..|c| - |"Middleware"|] == Text.UpperFirst(name)
    ensures c[|c| - |"Middleware"|..] == "Middleware"
  {
    "App\\Middleware\\" + Text.UpperFirst(name) + "Middleware"
  }

  /** `name:a,b` parses back to the name and the argument list. */
  lemma MiddlewareWithArgs(name: string, args: seq<string>)
    requires ':' !in name && |args| > 0
    requires forall i :: 0 <= i < |args| ==> ':' !in args[i] && ',' !in args[i]
    ensures ParseMiddleware(name + ":" + Text.Join(",", args)) == Directive(name, args)
  {
    var joined := Text.Join(",", args);
    Text.JoinFree(",", args, ':');
    Text.SplitJoin([name, joined], ':');
    assert Text.Join(":", [name, joined]) == name + ":" + joined;
    Text.SplitJoin(args, ',');
  }

  /** A directive without `:` has no arguments. */
  lemma MiddlewareWithoutArgs(name: string)
    requires ':' !in name
    ensures ParseMiddleware(name) == Directive(name, [])
  {
    Text.SplitJoin([name], ':');
  }

  /** `setNamespace(ns)`: any trailing backslashes replaced by exactly one. */
  function SetNamespace(rt: Router, ns: string): (r: Router)
    ensures var n := r.namespace;
      && |n| > 0 && n[|n| - 1] == '\\' && (|n| == 1 || n[|n| - 2] != '\\')
      && n[..|n| - 1] == Text.TrimRight(ns, '\\')
    ensures r.routes == rt.routes
  {
    rt.(namespace := Text.TrimRight(ns, '\\') + "\\")
  }

  /** Setting the namespace twice is setting it once, and a namespace without
      a trailing backslash gets exactly one appended. */
  lemma SetNamespaceIdempotent(rt: Router, ns: string)
    ensures SetNamespace(SetNamespace(rt, ns), SetNamespace(rt, ns).namespace) == SetNamespace(rt, ns)
    ensures (|ns| == 0 || ns[|ns| - 1] != '\\') ==> SetNamespace(rt, ns).namespace == ns + "\\"
  {
    var t := Text.TrimRight(ns, '\\');
    var n := t + "\\";
    assert n[..|n| - 1] == t;
    assert Text.TrimRight(n, '\\') == Text.TrimRight(t, '\\');
  }

  // ---------------------------------------------------------------- URL normalisation

  /** The form `getUrl()` hands to `match`: the root `/`, or a non-empty path
      without a slash at either end. */
  predicate Normalized(url: string)
  {
    url == "/" || (|url| > 0 && url[0] != '/' && url[|url| - 1] != '/')
  }

  /** Surrounding slashes trimmed; an empty or "0" result (falsy in PHP) becomes "/". */
  function NormalizePath(s: string): (r: string)
    ensures Normalized(r)
    ensures r != ""
    ensures r == "/" <==> Text.Trim(s, '/') == "" || Text.Trim(s, '/') == "0"
    ensures r != "/" ==> r == Text.Trim(s, '/')
  {
    var t := Text.Trim(s, '/');
    if t == "" || t == "0" then "/" else t
  }

  /** The string half of `getUrl()`: every occurrence of the site's root path
      removed from the request URI, then normalised. */
  function NormalizeUrl(rootPath: string, uri: string): (r: string)
    ensures Normalized(r)
    ensures r == NormalizePath(Text.RemoveAll(uri, rootPath))
    ensures rootPath == "" ==> r == NormalizePath(uri)
  {
    NormalizePath(Text.RemoveAll(uri, rootPath))
  }

  /** Any number of slashes around a path is dropped and the slashes inside it
      are kept: `/atletas/ver/5/` and `atletas/ver/5` both normalise to
      `atletas/ver/5`. */
  lemma SlashesTrimmed(i: nat, path: string, j: nat)
    requires Normalized(path) && path != "/" && path != "0"
    ensures NormalizePath(Text.Repeat('/', i) + path + Text.Repeat('/', j)) == path
  {
    Text.TrimRuns('/', i, path, j);
  }

  /** The site's root path in front of a request URI is removed before
      normalising, when it occurs nowhere in the rest of the URI. */
  lemma RootPathRemoved(rootPath: string, rest: string)
    requires |rootPath| > 0
    requires forall i :: 0 <= i < |rest| ==> !Text.StartsWith(rest[i..], rootPath)
    ensures NormalizeUrl(rootPath, rootPath + rest) == NormalizePath(rest)
  {
    Text.RemoveAllLeading(rootPath, rest);
    Text.RemoveAllAbsent(rest, rootPath);
  }

  /** Normalising a normalised path changes nothing. */
  lemma NormalizePathIdempotent(s: string)
    ensures NormalizePath(NormalizePath(s)) == NormalizePath(s)
  {
    var r := NormalizePath(s);
    if r == "/" {
      assert "/"[1..] == "";
      assert Text.TrimLeft("/", '/') == "";
    } else {
      assert Text.Trim(r, '/') == r;
    }
  }

  /** Splitting ends with an empty part exactly when the text is empty or ends
      with the delimiter. */
  lemma {:induction false} SplitLastEmpty(s: string, d: char)
    ensures var parts := Text.Split(s, d);
      parts[|parts| - 1] == "" <==> |s| == 0 || s[|s| - 1] == d
    decreases |s|
  {
    if |s| > 0 {
      var rest := Text.Split(s[1..], d);
      SplitLastEmpty(s[1..], d);
      if s[0] != d && |rest| == 1 {
        Text.JoinSplit(s[1..], d);
        assert s[1..] == rest[0];
        if |s| > 1 {
          assert s[|s| - 1] == s[1..][|s| - 2];
          assert s[1..][|s| - 2] in rest[0];
        }
      } else if |s| > 1 {
        assert s[|s| - 1] == s[1..][|s| - 2];
      }
    }
  }

  /** The last compiled segment of a pattern ending in `/` is the empty literal. */
  lemma LastSegmentEmpty(pattern: string)
    requires |pattern| > 0 && pattern[|pattern| - 1] == '/'
    ensures var segs := CompileRoute(pattern); segs[|segs| - 1] == Lit("")
  {
    var ps := Text.Split(pattern, '/');
    SplitLastEmpty(pattern, '/');
    assert CompileSegment(ps[|ps| - 1]) == Lit("");
  }

  /** A pattern of the form `x/` with `x` non-empty does not match `/`. */
  lemma SlashUrlUnmatched(pattern: string)
    requires |pattern| >= 2 && pattern[|pattern| - 1] == '/'
    ensures !PatternMatches(pattern, "/")
  {
    var ps := Text.Split(pattern, '/');
    var segs := CompileRoute(pattern);
    assert "/"[1..] == "";
    assert Text.Split("/", '/') == ["", ""];
    if |ps| == 2 {
      SplitLastEmpty(pattern, '/');
      Text.JoinSplit(pattern, '/');
      assert pattern == ps[0] + "/" + ps[1];
      assert ps[0] != "";
      assert !SegmentMatches(segs[0], "");
    }
  }

  /** A pattern ending in `/` does not match a URL whose last part is non-empty. */
  lemma FullUrlUnmatched(pattern: string, url: string)
    requires |pattern| > 0 && pattern[|pattern| - 1] == '/'
    requires |url| > 0 && url[|url| - 1] != '/'
    ensures !PatternMatches(pattern, url)
  {
    var us := Text.Split(url, '/');
    var segs := CompileRoute(pattern);
    LastSegmentEmpty(pattern);
    SplitLastEmpty(url, '/');
    if |us| == |segs| {
      assert !SegmentMatches(segs[|segs| - 1], us[|us| - 1]);
    }
  }

  /** A pattern ending in `/` (other than "/" itself) matches no normalised URL. */
  lemma TrailingSlashUnreachable(pattern: string, url: string)
    requires |pattern| >= 2 && pattern[|pattern| - 1] == '/'
    requires Normalized(url)
    ensures !PatternMatches(pattern, url)
  {
    if url == "/" {
      SlashUrlUnmatched(pattern);
    } else {
      FullUrlUnmatched(pattern, url);
    }
  }

  /** The pattern `group` builds for an index route ends in `/`. */
  lemma GroupIndexPattern(prefix: string)
    requires |prefix| > 0
    ensures var pattern := GroupPattern(prefix, "");
      |pattern| >= 2 && pattern[|pattern| - 1] == '/'
  {
    var t := Text.TrimLeft("", '/');
    assert |t| == 0;
    var pattern := prefix + "/" + t;
    assert pattern == GroupPattern(prefix, "");
    assert |pattern| == |prefix| + 1;
    assert pattern[|prefix|] == '/';
  }

  /** Root registration as written: the pattern "" matches only the empty URL,
      which URL normalisation never produces. */
  lemma RootRouteUnreachable(rootPath: string, uri: string)
    ensures !PatternMatches("", NormalizeUrl(rootPath, uri))
  {
    var url := NormalizeUrl(rootPath, uri);
    if PatternMatches("", url) {
      assert Text.Split("", '/') == [""];
      var us := Text.Split(url, '/');
      assert |us| == 1 && us[0] == "";
      Text.JoinSplit(url, '/');
    }
  }

  /** A group's index route as written, `prefix/`, matches no normalised URL. */
  lemma GroupIndexUnreachable(prefix: string, url: string)
    requires |prefix| > 0 && Normalized(url)
    ensures !PatternMatches(GroupPattern(prefix, ""), url)
  {
    GroupIndexPattern(prefix);
    TrailingSlashUnreachable(GroupPattern(prefix, ""), url);
  }

  /** `add` with the pattern normalised the way request URLs are, so that ""
      means the site root and `admin/` means `admin`. */
  function AddNormalized(rt: Router, pattern: string, controller: string, verbs: Verbs, middleware: seq<string>): (r: Router)
    ensures |r.routes| == |rt.routes| + 1 && r.routes[..|rt.routes|] == rt.routes
    ensures r.routes[|rt.routes|].pattern == NormalizePath(pattern)
  {
    Add(rt, NormalizePath(pattern), controller, verbs, middleware)
  }

  /** `group` registering through `AddNormalized`. */
  function GroupNormalized(rt: Router, prefix: string, inner: seq<Route>, middleware: seq<string>): (r: Router)
    ensures r.namespace == rt.namespace
    decreases |inner|
  {
    if |inner| == 0 then rt
    else
      var route := inner[0];
      GroupNormalized(AddNormalized(rt, GroupPattern(prefix, route.pattern), route.controller, Many(route.methods),
                                    middleware + route.middleware),
                      prefix, inner[1..], middleware)
  }

  /** With normalised registration every literal route is reached by the
      request for its own path: the root route by "/", a group index
      `prefix/` by `prefix`. */
  lemma NormalizedRouteReachable(pattern: string)
    requires Literal(NormalizePath(pattern))
    ensures PatternMatches(NormalizePath(pattern), NormalizeUrl("", pattern))
  {
    LiteralMatches(NormalizePath(pattern), NormalizeUrl("", pattern));
  }
  /** With normalised registration a group's index route (inner pattern "")
      is registered as the bare prefix and answers the request for `/prefix`. */
  lemma GroupIndexReachable(rt: Router, prefix: string, route: Route, middleware: seq<string>)
    requires route.pattern == "" && PlainSegment(prefix) && prefix != "" && prefix != "0"
    ensures var r := GroupNormalized(rt, prefix, [route], middleware);
      && |r.routes| == |rt.routes| + 1
      && r.routes[|rt.routes|].pattern == prefix
      && PatternMatches(r.routes[|rt.routes|].pattern, NormalizeUrl("", "/" + prefix))
  {
    GroupIndexStored(rt, prefix, route, middleware);
    LeadingSlashTrimmed(prefix);
    PlainLiteral(prefix);
    LiteralMatches(prefix, prefix);
  }

  /** With normalised registration the group's index route is stored as the bare prefix. */
  lemma GroupIndexStored(rt: Router, prefix: string, route: Route, middleware: seq<string>)
    requires route.pattern == "" && PlainSegment(prefix) && prefix != "" && prefix != "0"
    ensures var r := GroupNormalized(rt, prefix, [route], middleware);
      && |r.routes| == |rt.routes| + 1
      && r.routes[|rt.routes|].pattern == prefix
  {
    TrailingSlashTrimmed(prefix);
    var r1 := AddNormalized(rt, GroupPattern(prefix, ""), route.controller, Many(route.methods), middleware + route.middleware);
    assert [route][1..] == [];
    assert GroupNormalized(rt, prefix, [route], middleware) == r1;
  }

  lemma TrailingSlashTrimmed(prefix: string)
    requires '/' !in prefix && prefix != "" && prefix != "0"
    ensures NormalizePath(GroupPattern(prefix, "")) == prefix
  {
    GroupIndexPattern(prefix);
    assert GroupPattern(prefix, "") == Text.Repeat('/', 0) + prefix + Text.Repeat('/', 1);
    assert prefix[0] in prefix && prefix[|prefix| - 1] in prefix;
    SlashesTrimmed(0, prefix, 1);
  }

  lemma LeadingSlashTrimmed(prefix: string)
    requires '/' !in prefix && prefix != "" && prefix != "0"
    ensures NormalizeUrl("", "/" + prefix) == prefix
  {
    assert "/" + prefix == Text.Repeat('/', 1) + prefix + Text.Repeat('/', 0);
    assert prefix[0] in prefix && prefix[|prefix| - 1] in prefix;
    SlashesTrimmed(1, prefix, 0);
  }

  lemma PlainLiteral(s: string)
    requires PlainSegment(s)
    ensures Literal(s)
  {
    Text.SplitJoin([s], '/');
  }

  /** Grouping keeps every registered verb upper case. */
  lemma {:induction false} GroupVerbsUpper(rt: Router, prefix: string, inner: seq<Route>, middleware: seq<string>)
    requires VerbsUpper(rt.routes)
    ensures VerbsUpper(Group(rt, prefix, inner, middleware).routes)
    decreases |inner|
  {
    if |inner| > 0 {
      var route := inner[0];
      AddVerbsUpper(rt, GroupPattern(prefix, route.pattern), route.controller, Many(route.methods), middleware + route.middleware);
      GroupVerbsUpper(Add(rt, GroupPattern(prefix, route.pattern), route.controller, Many(route.methods), middleware + route.middleware),
                      prefix, inner[1..], middleware);
    }
  }

  // ---------------------------------------------------------------- examples

  /** A literal segment that is not a placeholder. */
  predicate PlainSegment(s: string)
  {
    '/' !in s && CompileSegment(s).Lit?
  }

  /** A placeholder name the regular expression accepts. */
  predicate GoodName(name: string)
  {
    0 < |name| <= 32 && !Text.IsDigit(name[0]) && forall k :: 0 <= k < |name| ==> IsNameChar(name[k])
  }

  /** A non-empty run of the characters a placeholder matches. */
  predicate ParamValue(v: string)
  {
    |v| > 0 && forall k :: 0 <= k < |v| ==> IsValueChar(v[k])
  }

  lemma PlaceholderSegment(name: string)
    requires GoodName(name)
    ensures '/' !in "{" + name + "}"
    ensures CompileSegment("{" + name + "}") == Param(name)
  {
    var s := "{" + name + "}";
    assert s[1..|s| - 1] == name;
    forall k | 0 <= k < |s| ensures s[k] != '/' {
      if 0 < k < |s| - 1 {
        assert s[k] == name[k - 1];
      }
    }
  }

  lemma ParameterPattern(a: string, b: string, name: string)
    requires PlainSegment(a) && PlainSegment(b) && GoodName(name)
    ensures CompileRoute(a + "/" + b + "/{" + name + "}") == [Lit(a), Lit(b), Param(name)]
    ensures Compiles([Lit(a), Lit(b), Param(name)])
  {
    var pattern := a + "/" + b + "/{" + name + "}";
    PlaceholderSegment(name);
    Text.Join3("/", a, b, "{" + name + "}");
    assert a + "/" + b + "/" + ("{" + name + "}") == pattern;
    SplitPath(pattern, [a, b, "{" + name + "}"]);
  }

  lemma ThreeCaptures(a: string, b: string, name: string, x: string, y: string, v: string)
    ensures Captures([Lit(a), Lit(b), Param(name)], [x, y, v]) == map[name := v]
  {
    assert Captures([Param(name)], [v]) == map[][name := v] by {
      assert Captures([Param(name)][1..], [v][1..]) == map[];
    }
    assert [Lit(a), Lit(b), Param(name)][1..] == [Lit(b), Param(name)];
    assert [Lit(b), Param(name)][1..] == [Param(name)];
    assert [x, y, v][1..] == [y, v] && [y, v][1..] == [v];
  }

  lemma ThreePartPath(a: string, b: string, v: string)
    requires '/' !in a && '/' !in b && '/' !in v
    ensures Text.Split(a + "/" + b + "/" + v, '/') == [a, b, v]
  {
    Text.Join3("/", a, b, v);
    SplitPath(a + "/" + b + "/" + v, [a, b, v]);
  }

  /** The route `a/b/{name}` answers `a/b/value` for every admissible value,
      capturing it under `name`, and does not answer `a/b/`. */
  lemma ParameterRoute(a: string, b: string, name: string, value: string, controller: string, verb: string)
    requires PlainSegment(a) && PlainSegment(b) && GoodName(name) && ParamValue(value)
    requires forall k :: 0 <= k < |verb| ==> !Text.IsLowerAscii(verb[k])
    ensures var rt := Add(NewRouter(), a + "/" + b + "/{" + name + "}", controller, One(verb), []);
      && Match(rt, a + "/" + b + "/" + value, verb).Some?
      && Match(rt, a + "/" + b + "/" + value, verb).value.params ==
        map[name := Captured(value)][RouteKey := MatchedRoute(rt.routes[0])]
      && Match(rt, a + "/" + b + "/", verb).None?
  {
    var pattern := a + "/" + b + "/{" + name + "}";
    var rt := Add(NewRouter(), pattern, controller, One(verb), []);
    UpperFixed(verb);
    assert rt.routes[0].methods == [verb];
    ParameterPattern(a, b, name);
    assert '/' !in value by {
      forall k | 0 <= k < |value| ensures value[k] != '/' {
        assert IsValueChar(value[k]);
      }
    }
    var url := a + "/" + b + "/" + value;
    ThreePartPath(a, b, value);
    assert PatternMatches(pattern, url);
    assert Hits(rt.routes[0], url, verb);
    ThreeCaptures(a, b, name, a, b, value);
    ParamsSingle(name, value, rt.routes[0]);
    assert Match(rt, url, verb) == Some(HitAt(rt.routes, 0, url));
    var short := a + "/" + b + "/";
    assert a + "/" + b + "/" + "" == short;
    ThreePartPath(a, b, "");
    assert Text.Split(short, '/') == [a, b, ""];
    assert !SegmentMatches(CompileRoute(pattern)[2], Text.Split(short, '/')[2]);
    assert !PatternMatches(pattern, short);
    assert !Hits(rt.routes[0], short, verb);
  }

  /** `atletas/ver/{id}` captures `5` and `abc-1` and does not answer `atletas/ver/`. */
  lemma ParameterExample()
    ensures var rt := Add(NewRouter(), "atletas/ver/{id}", "AtletaController@view", One("GET"), []);
      && Match(rt, "atletas/ver/5", "GET").Some?
      && Match(rt, "atletas/ver/5", "GET").value.params ==
        map["id" := Captured("5"), "route" := MatchedRoute(rt.routes[0])]
      && Match(rt, "atletas/ver/abc-1", "GET").Some?
      && Match(rt, "atletas/ver/", "GET").None?
  {
    assert "atletas" + "/" + "ver" + "/{" + "id" + "}" == "atletas/ver/{id}";
    assert "atletas" + "/" + "ver" + "/" + "5" == "atletas/ver/5";
    assert "atletas" + "/" + "ver" + "/" + "abc-1" == "atletas/ver/abc-1";
    assert "atletas" + "/" + "ver" + "/" == "atletas/ver/";
    assert PlainSegment("atletas") && PlainSegment("ver");
    assert GoodName("id") && ParamValue("5") && ParamValue("abc-1");
    ParameterRoute("atletas", "ver", "id", "5", "AtletaController@view", "GET");
    ParameterRoute("atletas", "ver", "id", "abc-1", "AtletaController@view", "GET");
  }

  /** One pattern registered twice with different verbs: the verb selects the
      action. */
  lemma VerbExample()
    ensures var rt := Add(Add(NewRouter(), "x", "C@a", One("GET"), []), "x", "C@b", One("POST"), []);
      && Match(rt, "x", "GET").Some? && GetMethod(Match(rt, "x", "GET").value.route.controller) == "a"
      && Match(rt, "x", "POST").Some? && GetMethod(Match(rt, "x", "POST").value.route.controller) == "b"
  {
    var rt := Add(Add(NewRouter(), "x", "C@a", One("GET"), []), "x", "C@b", One("POST"), []);
    VerbRoutes();
    SplitPath("x", ["x"]);
    assert PatternMatches("x", "x");
    assert Hits(rt.routes[0], "x", "GET");
    assert !Hits(rt.routes[0], "x", "POST");
    assert Hits(rt.routes[1], "x", "POST");
    ControllerAction(NewRouter(), "C", "a");
    ControllerAction(NewRouter(), "C", "b");
  }

  /** The two registrations of `VerbExample`, verbs already upper-case. */
  lemma VerbRoutes()
    ensures Add(Add(NewRouter(), "x", "C@a", One("GET"), []), "x", "C@b", One("POST"), []).routes
      == [Route("x", "C@a", ["GET"], []), Route("x", "C@b", ["POST"], [])]
  {
    assert Text.Upper("GET") == "GET";
    assert Text.Upper("POST") == "POST";
    assert UpperAll(["GET"]) == ["GET"] && UpperAll(["POST"]) == ["POST"];
  }

  lemma SplitPath(path: string, parts: seq<string>)
    requires |parts| >= 1 && forall i :: 0 <= i < |parts| ==> '/' !in parts[i]
    requires Text.Join("/", parts) == path
    ensures Text.Split(path, '/') == parts
  {
    Text.SplitJoin(parts, '/');
  }
}

=== FILE: text.dfy ===
/** String operations with the behaviour of the PHP built-ins the core relies on
    (`implode`, `explode` with a one-character delimiter, `trim`/`ltrim`/`rtrim`
    with one character, `strtoupper`/`strtolower` on ASCII, `str_replace`,
    `ucfirst`, integer-to-string conversion). Strings are `seq<char>`. */
module Text {

  /** `implode(sep, parts)`: the parts with `sep` between consecutive ones. */
  function Join(sep: string, parts: seq<string>): string
  {
    if |parts| == 0 then ""
    else if |parts| == 1 then parts[0]
    else parts[0] + sep + Join(sep, parts[1..])
  }

  lemma JoinCons(sep: string, head: string, tail: seq<string>)
    requires |tail| > 0
    ensures Join(sep, [head] + tail) == head + sep + Join(sep, tail)
  {
    assert ([head] + tail)[1..] == tail;
  }

  /** `implode(sep, parts) . sep . x == implode(sep, parts + [x])` for non-empty parts. */
  lemma {:induction false} JoinSnoc(sep: string, parts: seq<string>, x: string)
    requires |parts| > 0
    ensures Join(sep, parts + [x]) == Join(sep, parts) + sep + x
  {
    if |parts| == 1 {
      assert parts + [x] == [parts[0]] + [x];
      JoinCons(sep, parts[0], [x]);
    } else {
      JoinSnoc(sep, parts[1..], x);
      assert parts + [x] == [parts[0]] + (parts[1..] + [x]);
      JoinCons(sep, parts[0], parts[1..] + [x]);
      JoinCons(sep, parts[0], parts[1..]);
      assert [parts[0]] + parts[1..] == parts;
    }
  }

  /** Every part preceded by `sep`, concatenated. */
  function Lead(sep: string, parts: seq<string>): string
  {
    if |parts| == 0 then "" else Lead(sep, parts[..|parts| - 1]) + sep + parts[|parts| - 1]
  }

  /** Prefixing an implode with its separator puts the separator before every part. */
  lemma {:induction false} JoinLead(sep: string, parts: seq<string>)
    requires |parts| > 0
    ensures sep + Join(sep, parts) == Lead(sep, parts)
    decreases |parts|
  {
    var n := |parts|;
    var init := parts[..n - 1];
    var last := parts[n - 1];
    assert parts == init + [last];
    if n > 1 {
      JoinLead(sep, init);
      JoinSnoc(sep, init, last);
    } else {
      assert Lead(sep, init) == "";
      assert Join(sep, parts) == last;
    }
  }

  lemma Join3(sep: string, x: string, y: string, z: string)
    ensures Join(sep, [x, y, z]) == x + sep + y + sep + z
  {
    JoinCons(sep, x, [y, z]);
    JoinCons(sep, y, [z]);
    assert [x, y, z][1..] == [y, z];
  }

  /** A character found neither in the separator nor in any part is not in the join. */
  lemma {:induction false} JoinFree(sep: string, parts: seq<string>, c: char)
    requires c !in sep
    requires forall i :: 0 <= i < |parts| ==> c !in parts[i]
    ensures c !in Join(sep, parts)
  {
    if |parts| > 1 {
      JoinFree(sep, parts[1..], c);
    }
  }

  /** Number of occurrences of `c` in `s`. */
  function Occurrences(s: string, c: char): nat
  {
    if |s| == 0 then 0 else (if s[0] == c then 1 else 0) + Occurrences(s[1..], c)
  }

  lemma {:induction false} OccurrencesAppend(a: string, b: string, c: char)
    ensures Occurrences(a + b, c) == Occurrences(a, c) + Occurrences(b, c)
  {
    if |a| == 0 {
      assert a + b == b;
    } else {
      assert (a + b)[1..] == a[1..] + b;
      OccurrencesAppend(a[1..], b, c);
    }
  }

  /** A character occurs zero times exactly when it is absent. */
  lemma {:induction false} OccurrencesZero(s: string, c: char)
    ensures Occurrences(s, c) == 0 <==> c !in s
  {
    if |s| > 0 {
      OccurrencesZero(s[1..], c);
      assert s == [s[0]] + s[1..];
    }
  }

  /** Sum of the occurrences of `c` over all parts. */
  function TotalOccurrences(parts: seq<string>, c: char): nat
  {
    if |parts| == 0 then 0 else Occurrences(parts[0], c) + TotalOccurrences(parts[1..], c)
  }

  lemma {:induction false} TotalOccurrencesAppend(a: seq<string>, b: seq<string>, c: char)
    ensures TotalOccurrences(a + b, c) == TotalOccurrences(a, c) + TotalOccurrences(b, c)
  {
    if |a| == 0 {
      assert a + b == b;
    } else {
      assert (a + b)[1..] == a[1..] + b;
      TotalOccurrencesAppend(a[1..], b, c);
    }
  }

  /** Joining with a separator free of `c` neither adds nor loses occurrences of `c`. */
  lemma {:induction false} OccurrencesJoin(sep: string, parts: seq<string>, c: char)
    requires c !in sep
    ensures Occurrences(Join(sep, parts), c) == TotalOccurrences(parts, c)
  {
    if |parts| == 1 {
      assert parts[1..] == [];
    } else if |parts| > 1 {
      OccurrencesZero(sep, c);
      OccurrencesJoin(sep, parts[1..], c);
      OccurrencesAppend(parts[0], sep, c);
      OccurrencesAppend(parts[0] + sep, Join(sep, parts[1..]), c);
    }
  }

  /** `n` copies of `x`: `array_fill(0, n, x)`, or `str_repeat` for a character. */
  function Repeat<T>(x: T, n: nat): (r: seq<T>)
    ensures |r| == n
    ensures forall i :: 0 <= i < n ==> r[i] == x
  {
    seq(n, _ => x)
  }

  /** `explode(d, s)` for a one-character delimiter: the maximal d-free runs of `s`. */
  function Split(s: string, d: char): (parts: seq<string>)
    ensures |parts| >= 1
    ensures forall i :: 0 <= i < |parts| ==> d !in parts[i]
    decreases |s|
  {
    if |s| == 0 then [""]
    else
      var rest := Split(s[1..], d);
      if s[0] == d then [""] + rest
      else [[s[0]] + rest[0]] + rest[1..]
  }

  /** `implode(d, explode(d, s)) == s`. */
  lemma {:induction false} JoinSplit(s: string, d: char)
    ensures Join([d], Split(s, d)) == s
    decreases |s|
  {
    if |s| > 0 {
      var rest := Split(s[1..], d);
      JoinSplit(s[1..], d);
      if s[0] == d {
        JoinCons([d], "", rest);
      } else if |rest| == 1 {
        assert Split(s, d) == [[s[0]] + rest[0]];
      } else {
        JoinCons([d], rest[0], rest[1..]);
        assert [rest[0]] + rest[1..] == rest;
        JoinCons([d], [s[0]] + rest[0], rest[1..]);
      }
    }
  }

  /** A delimiter-free prefix sticks to the first part of the split. */
  lemma {:induction false} SplitPrefix(a: string, s: string, d: char)
    requires d !in a
    ensures Split(a + s, d) == [a + Split(s, d)[0]] + Split(s, d)[1..]
    decreases |a|
  {
    if |a| > 0 {
      assert (a + s)[1..] == a[1..] + s;
      assert (a + s)[0] == a[0] != d;
      SplitPrefix(a[1..], s, d);
      var rest := Split(a[1..] + s, d);
      assert rest[0] == a[1..] + Split(s, d)[0];
      assert rest[1..] == Split(s, d)[1..];
      assert [a[0]] + rest[0] == a + Split(s, d)[0];
    } else {
      assert a + s == s;
      assert a + Split(s, d)[0] == Split(s, d)[0];
      assert [Split(s, d)[0]] + Split(s, d)[1..] == Split(s, d);
    }
  }

  /** `explode(d, implode(d, parts)) == parts` when no part holds the delimiter. */
  lemma {:induction false} SplitJoin(parts: seq<string>, d: char)
    requires |parts| >= 1
    requires forall i :: 0 <= i < |parts| ==> d !in parts[i]
    ensures Split(Join([d], parts), d) == parts
  {
    if |parts| == 1 {
      SplitPrefix(parts[0], "", d);
      assert parts[0] + "" == parts[0];
    } else {
      var tail := parts[1..];
      SplitJoin(tail, d);
      var j := Join([d], tail);
      assert Split([d] + j, d) == [""] + tail by {
        assert ([d] + j)[1..] == j;
      }
      JoinCons([d], parts[0], tail);
      assert Join([d], parts) == parts[0] + ([d] + j);
      SplitPrefix(parts[0], [d] + j, d);
      assert parts[0] + "" == parts[0];
      assert [parts[0]] + tail == parts;
    }
  }

  /** `ltrim(s, c)`. */
  function TrimLeft(s: string, c: char): (r: string)
    ensures |r| <= |s| && r == s[|s| - |r|..]
    ensures |r| == 0 || r[0] != c
    ensures forall i :: 0 <= i < |s| - |r| ==> s[i] == c
  {
    if |s| > 0 && s[0] == c then TrimLeft(s[1..], c) else s
  }

  /** `rtrim(s, c)`. */
  function TrimRight(s: string, c: char): (r: string)
    ensures |r| <= |s| && r == s[..|r|]
    ensures |r| == 0 || r[|r| - 1] != c
    ensures forall i :: |r| <= i < |s| ==> s[i] == c
  {
    if |s| > 0 && s[|s| - 1] == c then TrimRight(s[..|s| - 1], c) else s
  }

  /** `trim(s, c)`. */
  function Trim(s: string, c: char): (r: string)
    ensures |r| == 0 || (r[0] != c && r[|r| - 1] != c)
    ensures |r| <= |s|
    ensures (|s| == 0 || (s[0] != c && s[|s| - 1] != c)) ==> r == s
    ensures exists a, b :: (0 <= a <= b <= |s| && r == s[a..b] &&
      forall k :: (0 <= k < a || b <= k < |s|) ==> s[k] == c)
  {
    TrimSlice(s, c);
    TrimRight(TrimLeft(s, c), c)
  }

  /** What `trim` keeps is one slice of its input, with only `c` around it. */
  lemma TrimSlice(s: string, c: char)
    ensures var r := TrimRight(TrimLeft(s, c), c);
      exists a, b :: (0 <= a <= b <= |s| && r == s[a..b] &&
        forall k :: (0 <= k < a || b <= k < |s|) ==> s[k] == c)
  {
    var l := TrimLeft(s, c);
    SliceOfSlice(s, l, TrimRight(l, c), c);
  }

  /** A prefix `r` of a suffix `l` of `s`, with only `c` cut off, is a slice of
      `s` with only `c` around it. */
  lemma SliceOfSlice(s: string, l: string, r: string, c: char)
    requires |l| <= |s| && l == s[|s| - |l|..] && forall i :: 0 <= i < |s| - |l| ==> s[i] == c
    requires |r| <= |l| && r == l[..|r|] && forall i :: |r| <= i < |l| ==> l[i] == c
    ensures exists a, b :: (0 <= a <= b <= |s| && r == s[a..b] &&
      forall k :: (0 <= k < a || b <= k < |s|) ==> s[k] == c)
  {
    var a := |s| - |l|;
    var b := a + |r|;
    assert r == s[a..b];
    forall k | 0 <= k < a || b <= k < |s|
      ensures s[k] == c
    {
      if b <= k {
        assert s[k] == l[k - a];
      }
    }
  }

  /** `ltrim` removes a leading run of `c` and stops at the first other character. */
  lemma {:induction false} TrimLeftRun(c: char, n: nat, t: string)
    requires |t| == 0 || t[0] != c
    ensures TrimLeft(Repeat(c, n) + t, c) == t
  {
    if n > 0 {
      var s := Repeat(c, n) + t;
      assert s[0] == c;
      assert s[1..] == Repeat(c, n - 1) + t;
      TrimLeftRun(c, n - 1, t);
    } else {
      assert Repeat(c, 0) + t == t;
    }
  }

  /** `rtrim` removes a trailing run of `c` and stops at the last other character. */
  lemma {:induction false} TrimRightRun(c: char, t: string, n: nat)
    requires |t| == 0 || t[|t| - 1] != c
    ensures TrimRight(t + Repeat(c, n), c) == t
  {
    if n > 0 {
      var s := t + Repeat(c, n);
      assert s[|s| - 1] == c;
      assert s[..|s| - 1] == t + Repeat(c, n - 1);
      TrimRightRun(c, t, n - 1);
    } else {
      assert t + Repeat(c, 0) == t;
    }
  }

  /** `trim` removes runs of `c` on both sides and keeps everything between. */
  lemma TrimRuns(c: char, i: nat, t: string, j: nat)
    requires |t| == 0 || (t[0] != c && t[|t| - 1] != c)
    ensures Trim(Repeat(c, i) + t + Repeat(c, j), c) == t
  {
    var tail := t + Repeat(c, j);
    assert Repeat(c, i) + t + Repeat(c, j) == Repeat(c, i) + tail;
    if |t| > 0 {
      assert tail[0] == t[0];
      TrimLeftRun(c, i, tail);
      TrimRightRun(c, t, j);
    } else {
      assert Repeat(c, i) + tail == Repeat(c, i + j) + "";
      TrimLeftRun(c, i + j, "");
    }
  }

  predicate IsLowerAscii(c: char) { 'a' <= c <= 'z' }
  predicate IsUpperAscii(c: char) { 'A' <= c <= 'Z' }

  function UpperChar(c: char): (u: char)
    ensures !IsLowerAscii(u)
  {
    if IsLowerAscii(c) then (c as int - 32) as char else c
  }

  function LowerChar(c: char): (l: char)
    ensures !IsUpperAscii(l)
  {
    if IsUpperAscii(c) then (c as int + 32) as char else c
  }

  /** `strtoupper(s)` on ASCII letters. */
  function Upper(s: string): (r: string)
    ensures |r| == |s|
    ensures forall i :: 0 <= i < |s| ==> r[i] == UpperChar(s[i])
  {
    seq(|s|, i requires 0 <= i < |s| => UpperChar(s[i]))
  }

  /** `strtolower(s)` on ASCII letters. */
  function Lower(s: string): (r: string)
    ensures |r| == |s|
    ensures forall i :: 0 <= i < |s| ==> r[i] == LowerChar(s[i])
  {
    seq(|s|, i requires 0 <= i < |s| => LowerChar(s[i]))
  }

  /** `ucfirst(s)`. */
  function UpperFirst(s: string): (r: string)
    ensures |r| == |s|
    ensures |s| > 0 ==> r[0] == UpperChar(s[0]) && r[1..] == s[1..]
  {
    if |s| == 0 then s else [UpperChar(s[0])] + s[1..]
  }

  /** `str_replace(from, to, s)` for single characters. */
  function ReplaceChar(s: string, from: char, to: char): (r: string)
    ensures |r| == |s|
    ensures forall i :: 0 <= i < |s| ==> r[i] == (if s[i] == from then to else s[i])
  {
    seq(|s|, i requires 0 <= i < |s| => if s[i] == from then to else s[i])
  }

  /** True when `s` starts with `p`. */
  predicate StartsWith(s: string, p: string)
  {
    |p| <= |s| && s[..|p|] == p
  }

  /** `str_replace(needle, '', s)`: removes the non-overlapping occurrences of
      `needle` found scanning left to right; an empty needle changes nothing. */
  function RemoveAll(s: string, needle: string): (r: string)
    ensures |r| <= |s|
    ensures |needle| == 0 ==> r == s
    decreases |s|
  {
    if |needle| == 0 || |s| == 0 then s
    else if StartsWith(s, needle) then RemoveAll(s[|needle|..], needle)
    else [s[0]] + RemoveAll(s[1..], needle)
  }

  /** Text in which `needle` starts nowhere is left as it is. */
  lemma {:induction false} RemoveAllAbsent(s: string, needle: string)
    requires forall i :: 0 <= i < |s| ==> !StartsWith(s[i..], needle)
    ensures RemoveAll(s, needle) == s
    decreases |s|
  {
    if |needle| > 0 && |s| > 0 {
      assert !StartsWith(s[0..], needle);
      assert s[0..] == s;
      forall i | 0 <= i < |s[1..]| ensures !StartsWith(s[1..][i..], needle) {
        assert s[1..][i..] == s[i + 1..];
      }
      RemoveAllAbsent(s[1..], needle);
      assert [s[0]] + s[1..] == s;
    }
  }

  /** A leading `needle` is removed, and the rest is scanned on. */
  lemma RemoveAllLeading(needle: string, rest: string)
    requires |needle| > 0
    ensures RemoveAll(needle + rest, needle) == RemoveAll(rest, needle)
  {
    var s := needle + rest;
    assert s[..|needle|] == needle;
    assert s[|needle|..] == rest;
  }

  predicate IsDigit(c: char) { '0' <= c <= '9' }

  function Digit(d: nat): (c: char)
    requires d < 10
    ensures IsDigit(c)
  {
    ('0' as int + d) as char
  }

  /** Decimal text of a natural number. */
  function NatText(n: nat): (r: string)
    ensures |r| > 0
    ensures forall i :: 0 <= i < |r| ==> IsDigit(r[i])
  {
    if n < 10 then [Digit(n)] else NatText(n / 10) + [Digit(n % 10)]
  }

  /** PHP's string conversion of an integer. */
  function IntText(i: int): (r: string)
    ensures |r| > 0
    ensures forall k :: 0 <= k < |r| ==> IsDigit(r[k]) || r[k] == '-'
  {
    if i < 0 then "-" + NatText(-i) else NatText(i)
  }

  /** Value of a digit string, the inverse of `NatText`. */
  function ParseNat(s: string): nat
    requires forall i :: 0 <= i < |s| ==> IsDigit(s[i])
  {
    if |s| == 0 then 0
    else
      assert IsDigit(s[|s| - 1]);
      10 * ParseNat(s[..|s| - 1]) + (s[|s| - 1] as int - '0' as int)
  }

  lemma {:induction false} ParseNatText(n: nat)
    ensures ParseNat(NatText(n)) == n
  {
    if n >= 10 {
      var t := NatText(n / 10) + [Digit(n % 10)];
      assert t[..|t| - 1] == NatText(n / 10);
      ParseNatText(n / 10);
    }
  }
}

=== FILE: values.dfy ===
/** Scalar values as the core handles them (PHP `null`, booleans, integers and
    strings) and the optional-value wrapper used for nullable readings. */
module Values {
  import Text

  datatype Option<+T> = None | Some(value: T)
  {
    /** The carried value, or `default` when there is none. */
    function GetOr(default: T): T
    {
      match this
      case Some(v) => v
      case None => default
    }
  }

  /** A column or parameter value. */
  datatype Value = Null | Bool(b: bool) | Int(i: int) | Str(s: string)

  /** PHP's string conversion, used where a value is interpolated into SQL text:
      `null` and `false` become the empty string, `true` becomes "1". */
  function ToText(v: Value): (t: string)
    ensures v.Str? ==> t == v.s
    ensures v.Int? ==> |t| > 0 && forall k :: 0 <= k < |t| ==> Text.IsDigit(t[k]) || t[k] == '-'
    ensures v.Null? ==> t == ""
  {
    match v
    case Null => ""
    case Bool(b) => if b then "1" else ""
    case Int(i) => Text.IntText(i)
    case Str(s) => s
  }
}

/** PHP ordered arrays with string keys, as a sequence of (key, value) entries in
    insertion order. Assigning to an existing key overwrites it in place;
    assigning to a new key appends. */
module Assoc {
  import opened Values

  /** The keys in iteration order (`array_keys`). */
  function Keys<V>(m: seq<(string, V)>): (ks: seq<string>)
    ensures |ks| == |m|
    ensures forall i :: 0 <= i < |m| ==> ks[i] == m[i].0
  {
    seq(|m|, i requires 0 <= i < |m| => m[i].0)
  }

  /** The values in iteration order (what a `foreach` over the array yields). */
  function ValuesOf<V>(m: seq<(string, V)>): (vs: seq<V>)
    ensures |vs| == |m|
    ensures forall i :: 0 <= i < |m| ==> vs[i] == m[i].1
  {
    seq(|m|, i requires 0 <= i < |m| => m[i].1)
  }

  /** No key occurs twice, as in every PHP array. */
  predicate Unique<V>(m: seq<(string, V)>)
  {
    forall i, j :: 0 <= i < j < |m| ==> m[i].0 != m[j].0
  }

  /** `array_key_exists(k, m) ? m[k] : null`, the absence made explicit. */
  function Lookup<V>(m: seq<(string, V)>, k: string): (r: Option<V>)
    ensures r.Some? <==> k in Keys(m)
  {
    if |m| == 0 then None
    else if m[0].0 == k then Some(m[0].1)
    else
      var r := Lookup(m[1..], k);
      assert Keys(m) == [m[0].0] + Keys(m[1..]);
      r
  }

  /** In an array without repeated keys, the lookup finds the entry at any position. */
  lemma {:induction false} LookupAt<V>(m: seq<(string, V)>, i: nat)
    requires Unique(m) && i < |m|
    ensures Lookup(m, m[i].0) == Some(m[i].1)
  {
    if i > 0 {
      LookupAt(m[1..], i - 1);
    }
  }

  /** `m[k] = v`. */
  function Put<V>(m: seq<(string, V)>, k: string, v: V): (r: seq<(string, V)>)
    ensures Keys(r) == if k in Keys(m) then Keys(m) else Keys(m) + [k]
  {
    if |m| == 0 then [(k, v)]
    else if m[0].0 == k then [(k, v)] + m[1..]
    else
      var rest := Put(m[1..], k, v);
      KeysCons(m[0], m[1..]);
      KeysCons(m[0], rest);
      assert m == [m[0]] + m[1..];
      [m[0]] + rest
  }

  lemma KeysCons<V>(e: (string, V), m: seq<(string, V)>)
    ensures Keys([e] + m) == [e.0] + Keys(m)
  {
  }

  /** A key of a concatenation is a key of one of its parts. */
  lemma KeysAppendIn<V>(a: seq<(string, V)>, b: seq<(string, V)>, k: string)
    ensures k in Keys(a + b) <==> k in Keys(a) || k in Keys(b)
  {
    assert Keys(a + b) == Keys(a) + Keys(b);
  }

  /** After `m[k] = v`, reading `k` gives `v` and every other key reads as before. */
  lemma {:induction false} PutLookup<V>(m: seq<(string, V)>, k: string, v: V, k': string)
    ensures Lookup(Put(m, k, v), k) == Some(v)
    ensures k' != k ==> Lookup(Put(m, k, v), k') == Lookup(m, k')
  {
    if |m| > 0 && m[0].0 != k {
      PutLookup(m[1..], k, v, k');
      assert ([m[0]] + Put(m[1..], k, v))[1..] == Put(m[1..], k, v);
    } else if |m| > 0 {
      assert ([(k, v)] + m[1..])[1..] == m[1..];
    }
  }

  /** Assignment keeps the keys of an array distinct. */
  lemma PutUnique<V>(m: seq<(string, V)>, k: string, v: V)
    requires Unique(m)
    ensures Unique(Put(m, k, v))
  {
    var r := Put(m, k, v);
    forall i, j | 0 <= i < j < |r|
      ensures r[i].0 != r[j].0
    {
      assert Keys(r)[i] == r[i].0 && Keys(r)[j] == r[j].0;
      if k !in Keys(m) && j == |m| {
        assert r[i].0 == Keys(m)[i];
      } else {
        assert r[i].0 == m[i].0 && r[j].0 == m[j].0;
      }
    }
  }

  /** `foreach (entries as k => v) m[k] = v`. */
  function PutAll<V>(m: seq<(string, V)>, entries: seq<(string, V)>): (r: seq<(string, V)>)
    ensures forall k :: k in Keys(r) <==> k in Keys(m) || k in Keys(entries)
    decreases |entries|
  {
    if |entries| == 0 then m
    else
      var r := PutAll(Put(m, entries[0].0, entries[0].1), entries[1..]);
      assert Keys(entries) == [entries[0].0] + Keys(entries[1..]);
      r
  }

  /** After bulk assignment from distinct-keyed entries, each assigned key reads
      as in the entries and every other key reads as before. */
  lemma {:induction false} PutAllLookup<V>(m: seq<(string, V)>, entries: seq<(string, V)>, k: string)
    requires Unique(entries)
    ensures k in Keys(entries) ==> Lookup(PutAll(m, entries), k) == Lookup(entries, k)
    ensures k !in Keys(entries) ==> Lookup(PutAll(m, entries), k) == Lookup(m, k)
    decreases |entries|
  {
    if |entries| > 0 {
      var e := entries[0];
      assert Keys(entries) == [e.0] + Keys(entries[1..]);
      assert Unique(entries[1..]);
      PutAllLookup(Put(m, e.0, e.1), entries[1..], k);
      PutLookup(m, e.0, e.1, k);
    }
  }

  /** Bulk assignment leaves every key it does not assign as it was. */
  lemma {:induction false} PutAllOther<V>(m: seq<(string, V)>, entries: seq<(string, V)>, k: string)
    requires k !in Keys(entries)
    ensures Lookup(PutAll(m, entries), k) == Lookup(m, k)
    decreases |entries|
  {
    if |entries| > 0 {
      var e := entries[0];
      assert Keys(entries) == [e.0] + Keys(entries[1..]);
      PutAllOther(Put(m, e.0, e.1), entries[1..], k);
      PutLookup(m, e.0, e.1, k);
    }
  }

  /** `PutAllLookup` and `PutAllOther` for every key at once. */
  lemma PutAllReads<V>(m: seq<(string, V)>, entries: seq<(string, V)>)
    ensures Unique(entries) ==>
      forall k :: k in Keys(entries) ==> Lookup(PutAll(m, entries), k) == Lookup(entries, k)
    ensures forall k :: k !in Keys(entries) ==> Lookup(PutAll(m, entries), k) == Lookup(m, k)
  {
    forall k | k !in Keys(entries)
      ensures Lookup(PutAll(m, entries), k) == Lookup(m, k)
    {
      PutAllOther(m, entries, k);
    }
    if Unique(entries) {
      forall k | k in Keys(entries)
        ensures Lookup(PutAll(m, entries), k) == Lookup(entries, k)
      {
        PutAllLookup(m, entries, k);
      }
    }
  }

  /** Bulk assignment keeps the keys of an array distinct. */
  lemma {:induction false} PutAllUnique<V>(m: seq<(string, V)>, entries: seq<(string, V)>)
    requires Unique(m)
    ensures Unique(PutAll(m, entries))
    decreases |entries|
  {
    if |entries| > 0 {
      PutUnique(m, entries[0].0, entries[0].1);
      PutAllUnique(Put(m, entries[0].0, entries[0].1), entries[1..]);
    }
  }
}
